=== FILE: README.md ===
# ShanBay word-image helper: a Dafny model

The extension finds the English word being studied on a ShanBay page and shows a grid of
up to six images for it. This project models the logic between the DOM and Chrome plumbing.

- **Word detection.** Ten CSS selectors are tried in order. For each, only the first element
  it matches (`querySelector`) is examined; the first such element whose trimmed text is made
  only of ASCII letters wins. When no selector yields a word, the first page-text
  token of 3 to 20 characters is used.
- **Image addresses.** The image list comes first from the background service worker, which
  calls the Google Custom Search API. If that gives nothing, the content script scrapes the
  image-search result page for addresses.
- **Fallback.** When the direct request fails, the extension switches to a fallback grid of
  Unsplash images.
- **Progress.** Each grid counts its images' callbacks in `loadedCount` and `successCount`,
  and these counts drive the loading text. The Google grid counts `onload`, `onerror` and an
  8-second timeout per image (content.js:489); the fallback grid (content.js:202-264) has no
  timeout and counts only `onload` and `onerror`.
- **Image addresses from a hash.** `simpleHash` and `getImageUrl` build Unsplash and Picsum
  addresses. Only the index-0 Unsplash address and the Picsum id are reproducible from the
  word. Every address from index 1 on, and every fallback-grid address, carries `Date.now()`
  (content.js:171-178, 267), so calls at different times give different addresses
  (`ImageSources.TimestampSeparatesCalls`, `ImageSources.FallbackUrlsDistinct`).
  `getImageUrl` and `simpleHash` are reached only through `getImageUrlFromBackground`
  (content.js:275-289), which nothing in the extension calls.

## How the model is built

- **Inputs in place of I/O.** Whatever the code gets from the browser or the network is an
  input:
  - what each selector matches and the page-text tokens;
  - the relay's answer and whether the extension context is valid;
  - the outcome of each `fetch`;
  - `Date.now()`;
  - the sequence of image callbacks.
- **`decodeURIComponent`** is a partial function passed as a parameter. None stands for the
  `URIError` that the extraction loop catches and skips.
- **JavaScript built-ins** are written out in `JsText`: `trim`, `includes`, `startsWith`,
  global literal `replace`, number-to-decimal conversion, ToInt32, `charCodeAt` (UTF-16) and
  `encodeURIComponent`.
- **Loops stay loops.** Each loop in the source is a method with a loop, proved equal to a
  specification function:
  - the selector loop;
  - the hash loop;
  - the two `exec` loops;
  - the `forEach` over API items.

  The properties are proved as lemmas about those functions.
- **Callback state is a class.**
  - The counters and loading text that the image callbacks share are the class
    `LoadProgress.ImageGrid`.
  - The background's configuration globals are the class `Background.BackgroundWorker`.

Modules:

- `Wrappers`: `Option` and `Result`.
- `JsText`: the JavaScript built-ins listed above.
- `WordDetection`: `detectCurrentWord`.
- `ImageSources`: `simpleHash`, `getImageUrl` and the fallback grid's addresses.
- `HtmlExtraction`: `extractImageUrlsFromHtml`.
- `Relay`: the messages between the two scripts.
- `Retrieval`: `getGoogleImages` and the routing in `loadMoreImages`.
- `LoadProgress`: the two grids' counters.
- `Background`: background.js.

### Behaviour of the code worth knowing

- **No generation counter or stale-callback guard.** Nothing retires an earlier grid's
  callbacks. A timeout does not cancel the image's later `onload` or `onerror`, because
  `clearTimeout` runs only in those handlers. So one image can be counted twice.
  `LoadProgress.TimeoutThenLoadCountsTwice` exhibits a run where `loadedCount` reaches
  `totalImages` while another image is still loading. The completion branch therefore does
  not always mean that every image has finished. It does mean that when no timeout has
  counted an image (`LoadProgress.CompletionWithoutTimeouts`).
- **No validation of the word's form.** Before retrieval the content script only stops when
  no word was detected at all (content.js:100-103). It does not check what the word looks
  like. A word from the page-text fallback goes to retrieval as it is.
- **The fallback grid is skipped in one case only.** When the direct retrieval fails,
  `loadMoreImages` asks for a page reload instead of showing the fallback grid only if the
  page request was rejected with a message that itself mentions the extension. Every other
  failure leads to the fallback grid. The red failure branch (content.js:624-626) can never be
  taken, because every failure message carries the `无法获取 Google 图片: ` prefix
  (`Retrieval.OutcomeRouting`).

## Model

| member | source | states |
|---|---|---|
| JsText.Trim | content.js:67 | `trim()`: the result is a slice of the input with only white space outside it, and neither of its ends is white space. An already-trimmed string is unchanged. The result is empty exactly when the text is all white space |
| JsText.ToInt32 | content.js:190-191 | the result lies in the signed 32-bit range and is congruent to the input modulo 2^32 |
| JsText.EncodeUriComponent | content.js:174 | every character of `encodeURIComponent`'s output is unreserved or `%`, and every `%` is followed by two upper-case hexadecimal digits; the output is at least as long as the input |
| JsText.PercentBytes | content.js:174 | byte k becomes characters 3k to 3k+2 of the output: `%` followed by the upper-case hexadecimal digits of its high and low halves; every `%` opens such an escape |
| JsText.EncodeUriComponentAppend | content.js:174 | the encoding splits over concatenation |
| JsText.EncodeUriComponentPerChar | content.js:174 | each character is replaced by its own encoding wherever it stands: itself when unreserved, otherwise the `%XX` escapes of its UTF-8 bytes |
| JsText.DecimalRoundTrip | content.js:176-178 | reading back the decimal text of a number that a template literal inserts gives the number |
| WordDetection.FirstAccepted | content.js:64-72 | the position of the first selector that yields a word; every earlier selector yields none |
| WordDetection.KeepInRange | content.js:79 | the filter keeps exactly the tokens of length 3 to 20 and never adds any |
| WordDetection.KeepInRangeAppend | content.js:79 | the filter keeps page order: filtering a concatenation filters each part in turn |
| WordDetection.FirstSurvivor | content.js:79-83 | the first token kept is the first token, in page order, whose length is in range |
| WordDetection.DetectCurrentWord | content.js:45-88 | the selector loop with its early return, then the page-text fallback, computes `Detected`. `Detected` is the reference definition: the first selector word if there is one, otherwise the first kept token, otherwise nothing |
| WordDetection.SelectorWins | content.js:64-72 | once a selector yields a word, later selectors and the page text are not consulted |
| WordDetection.FallbackToPageText | content.js:76-87 | with no selector word, the result is the first in-range token, and nothing (null, not an error) exactly when no token is in range |
| WordDetection.DetectedShape | content.js:45-88 | a detected word is either an ASCII-letter word or an in-range page token |
| ImageSources.StringHash | content.js:188-192 | each step truncates to a signed 32-bit value |
| ImageSources.ShiftStepIsTimes31 | content.js:190-191 | `((h << 5) - h) + c` followed by `h & h` is h := ToInt32(31·h + c) |
| ImageSources.StringHashIsTruncatedPolynomial | content.js:186-194 | truncating after every step equals truncating the whole 31-polynomial over the UTF-16 code units |
| ImageSources.JsHash | content.js:186-194 | `simpleHash` is non-negative and at most 2^31 |
| ImageSources.SimpleHash | content.js:186-194 | the `charCodeAt` loop returns `JsHash(s)`, which lies in [0, 2^31] |
| ImageSources.ImageId | content.js:167 | `hash % 1000 + 1` is in [1, 1000] |
| ImageSources.GetImageUrl | content.js:164-183 | index 0 gives the Unsplash address with the word's hash; index 1 gives the Picsum id address whose id is `ImageId` of the hash of the word followed by `1`, so it is in [1, 1000] and the same for every call; every index from 2 on gives the random Picsum address |
| ImageSources.JoinedInjective | content.js:176-178 | `${a}_${b}` determines both numbers |
| ImageSources.PicsumIdUrlInjective | content.js:176 | the Picsum id address determines its id, timestamp and index |
| ImageSources.TimestampSeparatesCalls | content.js:171-179 | for every index from 1 on, calls at different times give different addresses |
| ImageSources.UnsplashQueryIsWord | content.js:174 | for an ASCII-letter word, the Unsplash query is the word itself |
| ImageSources.FallbackUrlsDistinct | content.js:267 | `FallbackImageUrl`, the fallback grid's Unsplash address with `sig=${time}_${i}`, differs for every two different (time, index) pairs |
| HtmlExtraction.MatchKeyAt | content.js:394 | a match at position i starts with `"key":"`. Its capture is exactly the non-empty, quote-free markup between that opening and the next quote, and the match ends just after that quote. Conversely, an opening followed by a non-quote character and, later, a quote is always matched |
| HtmlExtraction.MatchKeyAtFinds | content.js:394 | `"key":"v"` followed by anything is matched with capture v, for every non-empty quote-free v, and the match ends just after the closing quote |
| HtmlExtraction.NextMatch | content.js:396 | `exec` from lastIndex returns the match at the leftmost position at or after lastIndex where one of the keys matches, and nothing exactly when no position from lastIndex on matches; a match ends after lastIndex, so the loop advances |
| HtmlExtraction.UnescapeUnicodePlain | content.js:400 | a value without a backslash has no `\uXXXX` escape and is left as it is |
| HtmlExtraction.DecodeEscapesPlain | content.js:400-401 | a value without a backslash reaches `decodeURIComponent` unchanged |
| HtmlExtraction.UnicodeEscapeValue | content.js:398-400 | the four hexadecimal digits of an escape read back as the code unit they were written from |
| HtmlExtraction.UnescapeUnicodeDecodes | content.js:398-400 | the `\uXXXX` pass decodes: after a stretch without backslashes, the escape of any non-surrogate code unit becomes that character, and the pass continues after it |
| HtmlExtraction.LiteralEscapePassesDecode | content.js:401 | the `\u003d` and `\u0026` passes turn the first escape after a backslash-free stretch into `=` and `&`, and continue after it |
| HtmlExtraction.BackslashPassDecodes | content.js:401 | the `\\` pass turns the first escaped backslash after a backslash-free stretch into a single backslash, and continues after it |
| JsText.ReplaceAllAt | content.js:401 | a global literal `replace` replaces the first occurrence after a stretch where the pattern cannot start, and continues the scan after the replaced text |
| HtmlExtraction.UnescapeKeepsEscapedSlashes | content.js:400 | the `\uXXXX` pass leaves a JSON-escaped address unchanged: each of its backslashes is followed by `/` |
| HtmlExtraction.ReplaceSkipsEscapedSlashes | content.js:401 | the `\u003d` and `\u0026` passes leave a JSON-escaped address unchanged |
| HtmlExtraction.UnescapeSlashes | content.js:401 | the `\/` pass turns every escaped slash back into `/` |
| HtmlExtraction.DecodeEscapedSlashes | content.js:400-401 | `DecodeEscapes` undoes JSON's escaping of `/` as `\/`: the address written that way reaches `decodeURIComponent` as the address itself |
| HtmlExtraction.Scan | content.js:396-413 | one loop only appends to the array, stops at 20, and keeps the array free of duplicates, `http`-prefixed and past the host filter |
| HtmlExtraction.Extracted | content.js:390-437 | the result has at most 20 distinct addresses, each starting with `http` and passing the host filter |
| HtmlExtraction.ScanFamily | content.js:394-413 | the `while`/`exec` loop, with lastIndex and the 20 cap, computes `Scan` over the family's captures |
| HtmlExtraction.ExtractImageUrlsFromHtml | content.js:390-437 | the two loops compute `Extracted`: at most 20 distinct addresses, each starting with `http` and passing the host filter |
| HtmlExtraction.ScanKeepsOrder | content.js:396-413 | what a loop appends is a subsequence of the family's decodable values, in markup order |
| HtmlExtraction.TwoScansOrder | content.js:416-434 | the result is a subsequence of the first family's values followed by the second's; with 6 or more from the first family, only the first family contributes |
| HtmlExtraction.TwoScansMembers | content.js:416-434 | every kept address comes from the first family, or from the second family when the first gave fewer than 6 |
| HtmlExtraction.ExtractedProvenance | content.js:390-437 | match order is preserved, and the second family is scanned only when the first yields fewer than 6 |
| HtmlExtraction.ScanComplete | content.js:404-408 | a loop that ends below 20 kept every decodable `http` value that passes the host filter |
| HtmlExtraction.ExtractedComplete | content.js:390-437 | below the cap, no acceptable value of a scanned family is dropped |
| Retrieval.RelayResult | content.js:308-336 | the relay promise resolves exactly when the background answers with success, and then with its list |
| Retrieval.GoogleImages | content.js:301-387 | a non-empty relay list is returned unchanged. Otherwise the result is Ok exactly when the page is read and extraction finds an address. It then holds the first min(n, 6) extracted addresses. Every failure starts with '无法获取 Google 图片: ' |
| Retrieval.RelayErrorsSwallowed | content.js:340-346 | a failed or empty relay answer has no influence on the result |
| Retrieval.GetGoogleImages | content.js:301-387 | computes `GoogleImages`; the search page is requested exactly when the relay answer is not used, at the `tbm=isch` address for the encoded word |
| Retrieval.OutcomeRouting | content.js:583-626 | after `getGoogleImages`, the grid is built exactly when retrieval succeeds. A reload is asked exactly when the relay is not used and the direct request is rejected with a message that mentions the extension (`扩展` or `Extension context`). The red failure branch is never taken, because every failure carries the '无法获取 Google 图片: ' prefix |
| Retrieval.UnreachableTestRedundant | content.js:612 | the third test, '无法获取', is implied by the first, '无法' |
| Retrieval.LoadMoreImages | content.js:440-629 | a non-empty list gives a grid of min(n, 6) images, in [1, 6]; a usable relay list always gives the grid; without it, the grid appears exactly when the page yields an address |
| Retrieval.StatusMessageNoReload | content.js:361-363 | a status failure message never mentions the extension |
| Retrieval.NothingExtractedNoReload | content.js:375 | nor does the empty-extraction message |
| Retrieval.DirectFailureMessage | content.js:353-376 | a direct-request failure mentions the extension only when a rejected request's own message does |
| Retrieval.DirectFailureFallsBack | content.js:378-380 | every failure of the direct request, once prefixed, routes to the fallback grid. The exception is a rejected request whose own message mentions the extension ('扩展' or 'Extension context') |
| LoadProgress.StartGoogle | content.js:469 | `totalImages = min(n, 6)`, in [1, 6], for a non-empty list |
| LoadProgress.Step | content.js:489-563 | `onload` increments both counters; `onerror` increments only `loadedCount`; a timeout counts only when still scheduled and the image has not rendered; the first success hides the text |
| LoadProgress.TallyUpdate | content.js:501-563 | changing one image changes a count by that image's own contribution |
| LoadProgress.TallyFull | content.js:517 | a count is full exactly when every image carries the mark |
| LoadProgress.TallyEmpty | content.js:519 | a count is zero exactly when no image carries the mark |
| LoadProgress.StartGoogleConsistent | content.js:469-499 | the Google grid starts in a consistent state |
| LoadProgress.StartFallbackConsistent | content.js:202-211 | so does the fallback grid |
| LoadProgress.StepConsistent | content.js:489-563 | every callback keeps the invariant: `loadedCount` = settled images + images counted by their timeout; `successCount` = loaded images ≤ `loadedCount`; the text is shown exactly while nothing has loaded, and in red exactly once the total is reached |
| LoadProgress.SuccessHidesText | content.js:508-514 | after any success the loading text is hidden, on both grids |
| LoadProgress.CompletionWithoutTimeouts | content.js:516-526 | with no timeout counted, `loadedCount === totalImages` holds exactly when every image has settled; the text then turns red exactly when none loaded |
| LoadProgress.RunConsistent | content.js:469-563 | the invariant holds after any sequence of callbacks |
| LoadProgress.RunMonotone | content.js:469-563 | the counters never decrease |
| LoadProgress.CompletesAtMostOnce | content.js:517-526 | the completion branch runs at most once per grid |
| LoadProgress.RunWithoutTimeouts | content.js:229-264 | without timeouts, `loadedCount` grows by the number of callbacks and `successCount` by the number of `onload`s |
| LoadProgress.TimeoutThenLoadCountsTwice | content.js:489-509 | a timeout followed by the same image's `onload` counts it twice, so completion can be reported early |
| LoadProgress.ImageGrid.ForGoogle | content.js:469-499 | the Google grid's initial counters, timeouts and text |
| LoadProgress.ImageGrid.ForFallback | content.js:202-211 | the fallback grid's initial state: six images, no timeouts |
| LoadProgress.ImageGrid.OnLoad | content.js:229-247 | `img.onload` of either grid (also content.js:501-527) applies `Step` and keeps the invariant |
| LoadProgress.ImageGrid.OnError | content.js:249-264 | `img.onerror` of either grid (also content.js:529-563) applies `Step` and keeps the invariant |
| LoadProgress.ImageGrid.OnTimeout | content.js:489-499 | the timeout callback applies `Step` and keeps the invariant |
| Background.QuoteFrom | background.js:74 | finds the first quote, which ends the `[^'"]*` run |
| Background.FindConst | background.js:74-75 | `match` returns the leftmost match; its capture holds no quote |
| Background.ConstValueRoundTrip | background.js:74-75 | a file starting `const NAME = 'v'` (either quote) yields v |
| Background.NoDeclarationNoValue | background.js:74-75 | a file without `const NAME = ` yields nothing |
| Background.AssignedKeeps | background.js:77-82 | a global is assigned only on a non-empty capture; otherwise it keeps its value; a set global is never cleared |
| Background.BackgroundWorker.ParseConfig | background.js:73-83 | each global becomes its constant's non-empty capture, or keeps its previous value |
| Background.BackgroundWorker.constructor | background.js:69-70 | both globals start unset |
| Background.ItemUrls | background.js:163-172 | at most one address per item, none of them empty |
| Background.ItemUrlsAppend | background.js:163-172 | the mapping preserves order: collecting over a concatenation concatenates |
| Background.ItemUrlsMembers | background.js:165-168 | an address is collected exactly when some item's `ItemUrl` gives it. `ItemUrl` is `item.link` when truthy, else a truthy `item.image.thumbnailLink`, else nothing |
| Background.ItemUrlsAllLinked | background.js:165 | when every item has a link, the links are collected one for one |
| Background.WrapError | background.js:194-198 | the configuration-error prefix appears exactly when the message mentions 'invalid' or '400'; otherwise the '无法获取 Google 图片: ' prefix; the message is kept at the end |
| Background.ImageSearch | background.js:121-200 | success gives the first min(n, 6) collected addresses, between 1 and 6. `data.error` always fails, before any item is read. A non-empty collection always succeeds. Every failure carries one of the two prefixes |
| Background.NothingFoundMessage | background.js:180-183 | no collected address fails with '无法获取 Google 图片: 未找到相关图片' |
| Background.BadRequestIsConfigError | background.js:133-136 | a 400 status is reported as a configuration error |
| Background.GetGoogleImageUrls | background.js:121-200 | the `forEach` loop, the empty check and the cap compute `ImageSearch` |
| Background.ReplyCarriesMessage | background.js:37-51 | a settled search is answered with its list or its own error message |
| Background.BackgroundWorker.HandleMessage | background.js:15-57 | a missing request or action answers 'Invalid request'. `getGoogleImages` with an unset key or cx answers the configuration failure and makes no API call. Otherwise it keeps the channel open, calls the API at the encoded-word address and answers with the search outcome. Unknown actions send nothing and return false |

## Left out

- All DOM and UI work is left out: the container, `showLoading`, `showError`, element
  creation, styles and the reload button's markup. Only the loading text's content,
  visibility and red colour are modelled.
- Chrome messaging and triggers are replaced by inputs: `chrome.runtime.sendMessage` and
  `onMessage`, `chrome.commands`, `chrome.tabs`, the keydown listener, and
  `isExtensionContextValid`.
- The background's `onCommand` forwarding (background.js:2-12) is trigger plumbing and is
  not modelled.
- Network and file I/O (`fetch`, `response.text()`, `response.json()`) are outcome
  datatypes.
  - A rejected `response.text()` on the page request is folded into a rejected request.
  - `loadConfig` (background.js:86-118) is not modelled beyond the `parseConfig` it calls.
    Its placeholder check only logs.
- Timer delays (8 s, 2 s, 0.5 s) and `Date.now()` are not modelled: timeouts are events and
  the timestamp is a parameter.
- The page-text tokeniser regular expression (content.js:76) is not modelled: its tokens
  are an input.
- The ten selector strings (content.js:48-59) and `querySelector` are not modelled. The
  model takes what each lookup returns, in selector order.
- `decodeURIComponent` is an opaque partial function.
- A `\uXXXX` escape naming a UTF-16 surrogate half cannot be held in a Dafny string.
  - HtmlExtraction.CodeUnitChar maps it to U+FFFD, so a surrogate pair written as two
    escapes is not rejoined.
  - Dafny strings hold no lone surrogates, so `encodeURIComponent`'s URIError cannot arise.
- `getImageUrlFromBackground` (content.js:275-289) is not modelled: it sends an action that
  the background never handles, and nothing calls it.
- ImageSources.GetImageUrl takes a natural-number index. A negative JavaScript index selects
  `sources[-1]` (content.js:181), which is `undefined`; that case is not modelled.
- popup.js and config.example.js are not part of this model.
- A page without a `.loading-text` element is not modelled (every `if (loadingText)` test is
  taken as true). Nor is a missing `.image-preview`, on which both loaders return at once.
- `data.items` that is present but not an array is modelled as missing.
- JSON values in `data.items` other than strings for `link` and `thumbnailLink` are not
  modelled.
- The order in which the browser delivers callbacks is arbitrary in the model: any
  sequence is allowed in which each image gets at most one `onload`/`onerror`.

=== FILE: background.dfy ===
/**
 * The background service worker (background.js): the guard and dispatch of the message
 * handler, `parseConfig` over the module globals `GOOGLE_API_KEY` and `GOOGLE_CX`, and
 * `getGoogleImageUrls` with its item mapping, six-image cap and error wrapping.
 * The outcome of the Custom Search API request is an input.
 */
module Background {
  import opened Wrappers
  import opened JsText
  import opened Relay

  const InvalidRequest: string := "Invalid request"
  const ConfigMissing: string := "API 配置未加载，请检查 config.js 文件是否存在并包含正确的密钥"
  const UnknownError: string := "未知错误"
  const NoImagesFound: string := "未找到相关图片"
  const FetchPrefix: string := "无法获取 Google 图片: "
  const ConfigErrorPrefix: string := "Google API 配置错误：可能需要创建自定义搜索引擎 (CX)。错误: "
  const MaxImages: nat := 6

  /** JavaScript truthiness of an optional string: present and not empty. */
  predicate Truthy(s: Option<string>) {
    s.Some? && s.value != []
  }

  // ---------------------------------------------------------------------------
  // parseConfig
  // ---------------------------------------------------------------------------

  predicate IsQuote(c: char) {
    c == '\'' || c == '"'
  }

  /** What precedes the opening quote in `const NAME = '...'`. */
  function ConstHead(name: string): string {
    "const " + name + " = "
  }

  /** The first quote at or after `from`, or |s| when there is none. */
  function QuoteFrom(s: string, from: nat): (j: nat)
    requires from <= |s|
    ensures from <= j <= |s|
    ensures j < |s| ==> IsQuote(s[j])
    ensures forall k :: from <= k < j ==> !IsQuote(s[k])
    decreases |s| - from
  {
    if from == |s| || IsQuote(s[from]) then from else QuoteFrom(s, from + 1)
  }

  /**
   * The capture of a match of `const NAME = ['"]([^'"]*)['"]` starting at position i:
   * the run of non-quote characters after the opening quote, which must end at a quote.
   */
  function ConstMatchAt(s: string, name: string, i: nat): Option<string>
    requires i <= |s|
  {
    var open := i + |ConstHead(name)|;
    if StartsWith(s[i..], ConstHead(name)) && open < |s| && IsQuote(s[open]) then
      var close := QuoteFrom(s, open + 1);
      if close < |s| then Some(s[open + 1..close]) else None
    else None
  }

  /** The capture of the leftmost match at or after `from`. */
  function FindConst(s: string, name: string, from: nat): (r: Option<string>)
    requires from <= |s|
    ensures r.Some? ==> forall c :: c in r.value ==> !IsQuote(c)
    ensures r.Some? ==> exists i :: from <= i <= |s| && ConstMatchAt(s, name, i) == r
                          && forall k :: from <= k < i ==> ConstMatchAt(s, name, k).None?
    ensures r.None? ==> forall k :: from <= k <= |s| ==> ConstMatchAt(s, name, k).None?
    decreases |s| - from
  {
    var m := ConstMatchAt(s, name, from);
    if m.Some? then m
    else if from == |s| then None
    else FindConst(s, name, from + 1)
  }

  /** `content.match(/const NAME = ['"]([^'"]*)['"]/)`, reduced to its capture group. */
  function ConstValue(content: string, name: string): Option<string> {
    FindConst(content, name, 0)
  }

  /** A file that opens with the declaration `const NAME = "v"` yields v, for any quotes and any rest. */
  lemma ConstValueRoundTrip(name: string, v: string, q1: char, q2: char, rest: string)
    requires IsQuote(q1) && IsQuote(q2)
    requires forall c :: c in v ==> !IsQuote(c)
    ensures ConstValue(ConstHead(name) + [q1] + v + [q2] + rest, name) == Some(v)
  {
    var s := ConstHead(name) + [q1] + v + [q2] + rest;
    var open := |ConstHead(name)|;
    assert s[0..][..open] == ConstHead(name);
    assert s[open] == q1;
    var close := QuoteFrom(s, open + 1);
    assert s[open + 1 + |v|] == q2;
    assert forall k :: open + 1 <= k < open + 1 + |v| ==> s[k] == v[k - open - 1];
    assert close == open + 1 + |v|;
    assert s[open + 1..close] == v;
  }

  /** A file without the text `const NAME = ` yields nothing for NAME. */
  lemma {:induction false} NoDeclarationNoValue(s: string, name: string, from: nat)
    requires from <= |s|
    requires !Contains(s[from..], ConstHead(name))
    ensures FindConst(s, name, from) == None
    decreases |s| - from
  {
    if from < |s| {
      assert s[from..][1..] == s[from + 1..];
      NoDeclarationNoValue(s, name, from + 1);
    }
  }

  /** The assignment `if (match && match[1]) GLOBAL = match[1]`. */
  function Assigned(prior: Option<string>, capture: Option<string>): Option<string> {
    if capture.Some? && capture.value != [] then capture else prior
  }

  // ---------------------------------------------------------------------------
  // The Custom Search API response
  // ---------------------------------------------------------------------------

  datatype ItemImage = ItemImage(thumbnailLink: Option<string>)

  /** One search result: `item.link` and `item.image`, either of which may be missing. */
  datatype Item = Item(link: Option<string>, image: Option<ItemImage>)

  /** `data.error`: its `message`, and `JSON.stringify(data.error)`. */
  datatype ApiError = ApiError(message: Option<string>, serialized: string)

  /** The parsed body: `data.error`, and `data.items` when it is present and an array. */
  datatype ApiData = ApiData(error: Option<ApiError>, items: Option<seq<Item>>)

  /** How the request to the API ends. */
  datatype ApiOutcome =
    | Rejected(message: string)          // fetch or response.json() rejects
    | HttpError(status: nat, text: string) // !response.ok; text is '' when response.text() rejects
    | Json(data: ApiData)

  /** `item.link || (item.image && item.image.thumbnailLink) || null`, truthy values only. */
  function ItemUrl(item: Item): Option<string> {
    if Truthy(item.link) then item.link
    else if item.image.Some? && Truthy(item.image.value.thumbnailLink) then item.image.value.thumbnailLink
    else None
  }

  /** The addresses the `forEach` collects, in item order. */
  function ItemUrls(items: seq<Item>): (urls: seq<string>)
    ensures |urls| <= |items|
    ensures forall i :: 0 <= i < |urls| ==> urls[i] != []
    decreases |items|
  {
    if items == [] then []
    else
      var last := ItemUrl(items[|items| - 1]);
      ItemUrls(items[..|items| - 1]) + (if last.Some? then [last.value] else [])
  }

  /** Collecting over a concatenation collects over each part, in order. */
  lemma {:induction false} ItemUrlsAppend(a: seq<Item>, b: seq<Item>)
    ensures ItemUrls(a + b) == ItemUrls(a) + ItemUrls(b)
    decreases |b|
  {
    if b != [] {
      var init := b[..|b| - 1];
      assert (a + b)[..|a + b| - 1] == a + init;
      ItemUrlsAppend(a, init);
    } else {
      assert a + b == a;
    }
  }

  /** An address is collected exactly when some item yields it. */
  lemma {:induction false} ItemUrlsMembers(items: seq<Item>, u: string)
    ensures u in ItemUrls(items) <==> exists i :: 0 <= i < |items| && ItemUrl(items[i]) == Some(u)
    decreases |items|
  {
    if items != [] {
      var init := items[..|items| - 1];
      ItemUrlsMembers(init, u);
      if exists i :: 0 <= i < |init| && ItemUrl(init[i]) == Some(u) {
        var i :| 0 <= i < |init| && ItemUrl(init[i]) == Some(u);
        assert items[i] == init[i];
      }
      if exists i :: 0 <= i < |items| && ItemUrl(items[i]) == Some(u) {
        var i :| 0 <= i < |items| && ItemUrl(items[i]) == Some(u);
        if i < |init| {
          assert init[i] == items[i];
        }
      }
    }
  }

  /** When every item has a link, the links are collected one for one, in order. */
  lemma {:induction false} ItemUrlsAllLinked(items: seq<Item>)
    requires forall i :: 0 <= i < |items| ==> Truthy(items[i].link)
    ensures |ItemUrls(items)| == |items|
    ensures forall i :: 0 <= i < |items| ==> items[i].link == Some(ItemUrls(items)[i])
    decreases |items|
  {
    if items != [] {
      ItemUrlsAllLinked(items[..|items| - 1]);
    }
  }

  /** `Google API 请求失败: ${status} ${errorText}` */
  function HttpErrorMessage(status: nat, text: string): string {
    "Google API 请求失败: " + NatToDecimal(status) + " " + text
  }

  /** `Google API 错误: ${data.error.message || JSON.stringify(data.error)}` */
  function ApiErrorMessage(e: ApiError): string {
    "Google API 错误: " + (if Truthy(e.message) then e.message.value else e.serialized)
  }

  predicate LooksLikeConfigError(m: string) {
    Contains(m, "invalid") || Contains(m, "400")
  }

  /**
   * background.js:194-198. A message mentioning `invalid` or `400` is reported as a
   * configuration error, any other one under the generic prefix; the message itself is kept at the end.
   */
  function WrapError(m: string): (r: string)
    ensures StartsWith(r, ConfigErrorPrefix) <==> LooksLikeConfigError(m)
    ensures StartsWith(r, FetchPrefix) <==> !LooksLikeConfigError(m)
    ensures |r| > |m| && r[|r| - |m|..] == m
  {
    var r := if LooksLikeConfigError(m) then ConfigErrorPrefix + m else FetchPrefix + m;
    assert r[|r| - |m|..] == m;
    assert ConfigErrorPrefix[0] == 'G' && FetchPrefix[0] == '无';
    assert (ConfigErrorPrefix + m)[..|ConfigErrorPrefix|] == ConfigErrorPrefix;
    assert (FetchPrefix + m)[..|FetchPrefix|] == FetchPrefix;
    r
  }

  /**
   * What `getGoogleImageUrls` settles with. It fails on a rejected request, a non-ok status,
   * or `data.error` (before looking at any item), and when no item yields an address;
   * otherwise it returns the first six addresses the items yield.
   */
  function ImageSearch(api: ApiOutcome): (r: Result<seq<string>, string>)
    ensures r.Ok? ==> api.Json? && api.data.error.None? && api.data.items.Some?
                      && var urls := ItemUrls(api.data.items.value);
                         1 <= |r.value| <= MaxImages && |r.value| == Min(|urls|, MaxImages)
                         && r.value == urls[..|r.value|]
    ensures api.Json? && api.data.error.Some? ==> r.Err?
    ensures api.Json? && api.data.error.None? && api.data.items.Some? && ItemUrls(api.data.items.value) != [] ==> r.Ok?
    ensures r.Err? ==> StartsWith(r.error, ConfigErrorPrefix) || StartsWith(r.error, FetchPrefix)
  {
    match api
    case Rejected(m) => Err(WrapError(m))
    case HttpError(status, text) => Err(WrapError(HttpErrorMessage(status, text)))
    case Json(data) =>
      if data.error.Some? then Err(WrapError(ApiErrorMessage(data.error.value)))
      else
        var urls := if data.items.Some? then ItemUrls(data.items.value) else [];
        if urls == [] then Err(WrapError(NoImagesFound))
        else Ok(urls[..Min(|urls|, MaxImages)])
  }

  /** With no error and nothing collected, the failure is the generic-prefixed '未找到相关图片'. */
  lemma NothingFoundMessage(api: ApiOutcome)
    requires api.Json? && api.data.error.None?
    requires api.data.items.None? || ItemUrls(api.data.items.value) == []
    ensures ImageSearch(api) == Err(FetchPrefix + NoImagesFound)
  {
    NotContainsForeignHead(NoImagesFound, "invalid");
    NotContainsForeignHead(NoImagesFound, "400");
  }

  /** A 400 status is always reported as a configuration error. */
  lemma BadRequestIsConfigError(text: string)
    ensures ImageSearch(HttpError(400, text)).Err?
    ensures StartsWith(ImageSearch(HttpError(400, text)).error, ConfigErrorPrefix)
  {
    assert NatToDecimal(400) == "400" by {
      assert NatToDecimal(4) == "4";
      assert NatToDecimal(40) == "40";
    }
    var m := HttpErrorMessage(400, text);
    assert m == "Google API 请求失败: " + ("400" + (" " + text));
    ContainsAt("Google API 请求失败: ", "400" + (" " + text), "400");
  }

  /** background.js:160-188 as a procedure: the `forEach` pushes, then the empty check and the cap. */
  method GetGoogleImageUrls(api: ApiOutcome) returns (r: Result<seq<string>, string>)
    ensures r == ImageSearch(api)
  {
    var thrown: string;
    match api {
      case Rejected(m) =>
        thrown := m;
      case HttpError(status, text) =>
        thrown := HttpErrorMessage(status, text);
      case Json(data) =>
        if data.error.Some? {
          thrown := ApiErrorMessage(data.error.value);
        } else {
          var imageUrls: seq<string> := [];
          if data.items.Some? {
            var items := data.items.value;
            for index := 0 to |items|
              invariant imageUrls == ItemUrls(items[..index])
            {
              assert items[..index + 1][..index] == items[..index];
              var imageUrl := ItemUrl(items[index]);
              if imageUrl.Some? {
                imageUrls := imageUrls + [imageUrl.value];
              }
            }
            assert items[..|items|] == items;
          }
          if |imageUrls| == 0 {
            thrown := NoImagesFound;
          } else {
            r := Ok(imageUrls[..Min(|imageUrls|, MaxImages)]);
            return;
          }
        }
    }
    r := Err(WrapError(thrown));
  }

  // ---------------------------------------------------------------------------
  // The message handler
  // ---------------------------------------------------------------------------

  /** `request.word || ''` */
  function RequestedWord(request: Request): string {
    if Truthy(request.word) then request.word.value else ""
  }

  function ApiUrl(key: string, cx: string, word: string): string {
    "https://www.googleapis.com/customsearch/v1?key=" + key + "&cx=" + cx + "&q="
      + EncodeUriComponent(word) + "&searchType=image&num=10&safe=active"
  }

  /** The response sent once `getGoogleImageUrls` settles: `error.message || '未知错误'` on failure. */
  function Reply(r: Result<seq<string>, string>): Response {
    match r
    case Ok(urls) => Succeeded(urls)
    case Err(m) => Failed(if m != [] then m else UnknownError)
  }

  /** A settled search is never answered with the '未知错误' placeholder: every failure has a message. */
  lemma ReplyCarriesMessage(api: ApiOutcome)
    ensures ImageSearch(api).Err? ==> Reply(ImageSearch(api)) == Failed(ImageSearch(api).error)
    ensures ImageSearch(api).Ok? ==> Reply(ImageSearch(api)) == Succeeded(ImageSearch(api).value)
  {
  }

  predicate IsImageRequest(request: Option<Request>) {
    request.Some? && request.value.action == Some(GetGoogleImagesAction)
  }

  /** The worker's module globals, set by `parseConfig` and read by the message handler. */
  class BackgroundWorker {
    var apiKey: Option<string>
    var cx: Option<string>

    /** `let GOOGLE_API_KEY; let GOOGLE_CX;` */
    constructor()
      ensures apiKey == None && cx == None
    {
      apiKey := None;
      cx := None;
    }

    predicate Configured()
      reads this
    {
      Truthy(apiKey) && Truthy(cx)
    }

    /** background.js:73-83. Each global takes its constant's capture when that is not empty, else keeps its value. */
    method ParseConfig(content: string)
      modifies this
      ensures apiKey == Assigned(old(apiKey), ConstValue(content, "GOOGLE_API_KEY"))
      ensures cx == Assigned(old(cx), ConstValue(content, "GOOGLE_CX"))
    {
      var apiKeyMatch := ConstValue(content, "GOOGLE_API_KEY");
      var cxMatch := ConstValue(content, "GOOGLE_CX");
      if apiKeyMatch.Some? && apiKeyMatch.value != [] {
        apiKey := apiKeyMatch;
      }
      if cxMatch.Some? && cxMatch.value != [] {
        cx := cxMatch;
      }
    }

    /**
     * background.js:15-57. Returns whether the channel is kept open, the response sent
     * (None when nothing is sent) and the API address requested (None when no request is made).
     */
    method HandleMessage(request: Option<Request>, api: ApiOutcome)
      returns (keepOpen: bool, response: Option<Response>, apiCall: Option<string>)
      ensures request.None? || !Truthy(request.value.action) ==>
                !keepOpen && response == Some(Failed(InvalidRequest)) && apiCall.None?
      ensures IsImageRequest(request) && !Configured() ==>
                !keepOpen && response == Some(Failed(ConfigMissing)) && apiCall.None?
      ensures IsImageRequest(request) && Configured() ==>
                keepOpen && apiCall == Some(ApiUrl(apiKey.value, cx.value, RequestedWord(request.value)))
                && response == Some(Reply(ImageSearch(api)))
      ensures request.Some? && Truthy(request.value.action) && !IsImageRequest(request) ==>
                !keepOpen && response.None? && apiCall.None?
      ensures apiCall.Some? <==> keepOpen
    {
      if request.None? || !Truthy(request.value.action) {
        return false, Some(Failed(InvalidRequest)), None;
      }
      if request.value.action.value == GetGoogleImagesAction {
        var word := RequestedWord(request.value);
        if !Truthy(apiKey) || !Truthy(cx) {
          return false, Some(Failed(ConfigMissing)), None;
        }
        apiCall := Some(ApiUrl(apiKey.value, cx.value, word));
        var result := GetGoogleImageUrls(api);
        return true, Some(Reply(result)), apiCall;
      }
      return false, None, None;
    }
  }

  /** Parsing never clears a global: a set global stays set, and one without a usable capture keeps its value. */
  lemma AssignedKeeps(prior: Option<string>, capture: Option<string>)
    ensures Truthy(prior) ==> Truthy(Assigned(prior, capture))
    ensures capture.None? || capture.value == [] ==> Assigned(prior, capture) == prior
    ensures capture.Some? && capture.value != [] ==> Assigned(prior, capture) == capture
  {
  }
}

=== FILE: html_extraction.dfy ===
/**
 * Extracting image addresses from the markup of an image-search result page
 * (content.js, `extractImageUrlsFromHtml`, lines 390-437).
 *
 * The two global regular expressions are written out as a scanner over the markup;
 * `decodeURIComponent` is a parameter: a partial function whose None stands for the
 * URIError that the source catches and skips.
 */
module HtmlExtraction {
  import opened Wrappers
  import opened JsText

  /** `/"(?:ou|ow)":"([^"]+)"/g`: the keys of the original-image family, in alternation order. */
  const OriginalKeys: seq<string> := ["ou", "ow"]

  /** `/"(?:imgurl|img_ref_url|ru)":"([^"]+)"/g`: the second family. */
  const ReferenceKeys: seq<string> := ["imgurl", "img_ref_url", "ru"]

  /** Scanning stops once this many addresses have been accepted. */
  const MaxUrls: nat := 20

  /** The second family is scanned only when the first gave fewer than this many. */
  const EnoughUrls: nat := 6

  // ---------------------------------------------------------------------------
  // The regular expressions
  // ---------------------------------------------------------------------------

  /** One match: the captured value and the index just after the closing quote (the new lastIndex). */
  datatype Match = Match(value: string, end: nat)

  /** The first `"` at or after j, or |s| when there is none. */
  function NextQuote(s: string, j: nat): (q: nat)
    requires j <= |s|
    ensures j <= q <= |s|
    ensures q < |s| ==> s[q] == '"'
    ensures forall k :: j <= k < q ==> s[k] != '"'
    decreases |s| - j
  {
    if j == |s| || s[j] == '"' then j else NextQuote(s, j + 1)
  }

  /** `"key":"` */
  function Opening(key: string): string {
    "\"" + key + "\":\""
  }

  /**
   * The pattern with one key at position i: the opening, then `[^"]+` (greedy, so up to the
   * next quote, and at least one character), then the closing quote.
   */
  function MatchKeyAt(html: string, i: nat, key: string): (m: Option<Match>)
    requires i <= |html|
    ensures m.Some? ==> i < m.value.end <= |html| && |m.value.value| > 0 && '"' !in m.value.value
    ensures m.Some? ==> StartsWith(html[i..], Opening(key)) && i + |Opening(key)| < m.value.end
                        && html[m.value.end - 1] == '"' && m.value.value == html[i + |Opening(key)|..m.value.end - 1]
    ensures (StartsWith(html[i..], Opening(key)) && i + |Opening(key)| < |html| && html[i + |Opening(key)|] != '"'
             && '"' in html[i + |Opening(key)|..]) ==> m.Some?
  {
    var open := Opening(key);
    if StartsWith(html[i..], open) then
      var j := i + |open|;
      var q := NextQuote(html, j);
      assert j < |html| && '"' in html[j..] ==> q < |html| by {
        if j < |html| && '"' in html[j..] {
          var k :| 0 <= k < |html[j..]| && html[j..][k] == '"';
          assert html[j + k] == '"';
        }
      }
      if j < q < |html| then Some(Match(html[j..q], q + 1)) else None
    else None
  }

  /** `"key":"v"` is matched with capture v, whatever follows, when v is non-empty and quote-free. */
  lemma MatchKeyAtFinds(a: string, key: string, v: string, b: string)
    requires |v| > 0 && '"' !in v
    ensures MatchKeyAt(a + Opening(key) + v + "\"" + b, |a|, key) == Some(Match(v, |a| + |Opening(key)| + |v| + 1))
  {
    var html := a + Opening(key) + v + "\"" + b;
    var j := |a| + |Opening(key)|;
    assert html[|a|..][..|Opening(key)|] == Opening(key);
    assert html[j..j + |v|] == v;
    assert html[j + |v|] == '"';
    var q := NextQuote(html, j);
    assert q == j + |v|;
  }

  /** The alternation at position i: the keys are tried in order. */
  function MatchAt(html: string, i: nat, keys: seq<string>): (m: Option<Match>)
    requires i <= |html|
    ensures m.Some? ==> i < m.value.end <= |html| && |m.value.value| > 0
    decreases |keys|
  {
    if keys == [] then None
    else match MatchKeyAt(html, i, keys[0])
      case Some(m) => Some(m)
      case None => MatchAt(html, i, keys[1..])
  }

  /** `exec` with `lastIndex == from`: the leftmost match that starts at or after from. */
  function NextMatch(html: string, from: nat, keys: seq<string>): (m: Option<Match>)
    requires from <= |html|
    ensures m.Some? ==> from < m.value.end <= |html|
    ensures m.Some? ==> exists p :: LeftmostMatch(html, from, p, keys) && MatchAt(html, p, keys) == m
    ensures m.None? ==> forall q :: from <= q <= |html| ==> MatchAt(html, q, keys).None?
    decreases |html| - from
  {
    match MatchAt(html, from, keys)
    case Some(m) =>
      assert LeftmostMatch(html, from, from, keys);
      Some(m)
    case None =>
      if from < |html| then
        var r := NextMatch(html, from + 1, keys);
        assert r.Some? ==> exists p :: LeftmostMatch(html, from, p, keys) && MatchAt(html, p, keys) == r by {
          if r.Some? {
            var p :| LeftmostMatch(html, from + 1, p, keys) && MatchAt(html, p, keys) == r;
            assert LeftmostMatch(html, from, p, keys);
          }
        }
        r
      else None
  }

  /** No match starts in [from, p), and one starts at p. */
  predicate LeftmostMatch(html: string, from: nat, p: nat, keys: seq<string>) {
    from <= p <= |html| && MatchAt(html, p, keys).Some?
    && forall q :: from <= q < p ==> MatchAt(html, q, keys).None?
  }

  /** The values captured by successive `exec` calls starting at lastIndex `from`, in markup order. */
  function Captures(html: string, from: nat, keys: seq<string>): seq<string>
    requires from <= |html|
    decreases |html| - from
  {
    match NextMatch(html, from, keys)
    case None => []
    case Some(m) => [m.value] + Captures(html, m.end, keys)
  }

  // ---------------------------------------------------------------------------
  // Decoding one captured value
  // ---------------------------------------------------------------------------

  predicate IsHexDigit(c: char) {
    IsDigit(c) || 'a' <= c <= 'f' || 'A' <= c <= 'F'
  }

  function HexDigitValue(c: char): (v: nat)
    requires IsHexDigit(c)
    ensures v < 16
  {
    if IsDigit(c) then c as int - '0' as int
    else if 'a' <= c <= 'f' then c as int - 'a' as int + 10
    else c as int - 'A' as int + 10
  }

  /** The value of four hexadecimal digits. */
  function Hex4Value(s: string): (v: nat)
    requires |s| == 4 && forall i :: 0 <= i < 4 ==> IsHexDigit(s[i])
    ensures v < 0x1_0000
  {
    ((HexDigitValue(s[0]) * 16 + HexDigitValue(s[1])) * 16 + HexDigitValue(s[2])) * 16 + HexDigitValue(s[3])
  }

  /**
   * `String.fromCharCode(code)`. A code in the surrogate range gives a lone surrogate in
   * JavaScript, which a Dafny string cannot hold; it becomes U+FFFD here.
   */
  function CodeUnitChar(code: nat): char
    requires code < 0x1_0000
  {
    if 0xD800 <= code < 0xE000 then '\U{FFFD}' else code as char
  }

  /** `\uXXXX` at the head of s. */
  predicate UnicodeEscapeAt(s: string) {
    |s| >= 6 && s[0] == '\\' && s[1] == 'u' && forall i :: 2 <= i < 6 ==> IsHexDigit(s[i])
  }

  /** `s.replace(/\\u([0-9a-fA-F]{4})/g, ...)`: every `\uXXXX` becomes the character it names. */
  function UnescapeUnicode(s: string): string
    decreases |s|
  {
    if s == [] then []
    else if UnicodeEscapeAt(s) then [CodeUnitChar(Hex4Value(s[2..6]))] + UnescapeUnicode(s[6..])
    else [s[0]] + UnescapeUnicode(s[1..])
  }

  /** A value without backslashes holds no escape and is left as it is. */
  lemma {:induction false} UnescapeUnicodePlain(s: string)
    requires forall i :: 0 <= i < |s| ==> s[i] != '\\'
    ensures UnescapeUnicode(s) == s
    decreases |s|
  {
    if s != [] {
      assert !UnicodeEscapeAt(s);
      UnescapeUnicodePlain(s[1..]);
      assert s == [s[0]] + s[1..];
    }
  }

  /** `\uXXXX` with upper-case digits, as JSON writes the UTF-16 code unit c. */
  function UnicodeEscape(c: char): (e: string)
    requires c as int < 0x1_0000
    ensures UnicodeEscapeAt(e) && |e| == 6
  {
    var v := c as int;
    "\\u" + [HexDigit(v / 16 / 16 / 16), HexDigit(v / 16 / 16 % 16), HexDigit(v / 16 % 16), HexDigit(v % 16)]
  }

  lemma HexDigitRoundTrip(d: nat)
    requires d < 16
    ensures IsHexDigit(HexDigit(d)) && HexDigitValue(HexDigit(d)) == d
  {
  }

  /** The four digits of an escape read back as the code unit they were written from. */
  lemma UnicodeEscapeValue(c: char)
    requires c as int < 0x1_0000
    ensures Hex4Value(UnicodeEscape(c)[2..6]) == c as int
  {
    var v := c as int;
    var h1, h2, h3 := v / 16, v / 16 / 16, v / 16 / 16 / 16;
    assert v == h1 * 16 + v % 16 && h1 == h2 * 16 + h1 % 16 && h2 == h3 * 16 + h2 % 16;
    HexDigitRoundTrip(h3);
    HexDigitRoundTrip(h2 % 16);
    HexDigitRoundTrip(h1 % 16);
    HexDigitRoundTrip(v % 16);
    assert UnicodeEscape(c)[2..6] == [HexDigit(h3), HexDigit(h2 % 16), HexDigit(h1 % 16), HexDigit(v % 16)];
  }

  /**
   * The `\uXXXX` pass decodes: after a stretch without backslashes, the escape of a code unit
   * outside the surrogate range becomes that character, and the pass goes on after it.
   */
  lemma {:induction false} UnescapeUnicodeDecodes(a: string, c: char, b: string)
    requires '\\' !in a
    requires c as int < 0xD800 || 0xE000 <= c as int < 0x1_0000
    ensures UnescapeUnicode(a + UnicodeEscape(c) + b) == a + [c] + UnescapeUnicode(b)
    decreases |a|
  {
    var s := a + UnicodeEscape(c) + b;
    if a == [] {
      assert s == UnicodeEscape(c) + b;
      assert s[2..6] == UnicodeEscape(c)[2..6] && s[6..] == b;
      UnicodeEscapeValue(c);
    } else {
      assert s[0] == a[0] && !UnicodeEscapeAt(s);
      assert s[1..] == a[1..] + UnicodeEscape(c) + b;
      UnescapeUnicodeDecodes(a[1..], c, b);
      assert a == [a[0]] + a[1..];
    }
  }

  /** The `\\` pass turns an escaped backslash into a single one, and goes on after it. */
  lemma BackslashPassDecodes(a: string, b: string)
    requires '\\' !in a
    ensures ReplaceAll(a + "\\\\" + b, "\\\\", "\\") == a + "\\" + ReplaceAll(b, "\\\\", "\\")
  {
    ReplaceAllAt(a, "\\\\", "\\", b);
  }

  /** So do the `\u003d` and `\u0026` passes, which give `=` and `&`. */
  lemma LiteralEscapePassesDecode(a: string, b: string)
    requires '\\' !in a
    ensures ReplaceAll(a + "\\u003d" + b, "\\u003d", "=") == a + "=" + ReplaceAll(b, "\\u003d", "=")
    ensures ReplaceAll(a + "\\u0026" + b, "\\u0026", "&") == a + "&" + ReplaceAll(b, "\\u0026", "&")
  {
    ReplaceAllAt(a, "\\u003d", "=", b);
    ReplaceAllAt(a, "\\u0026", "&", b);
  }

  /**
   * content.js:400-401: the `\uXXXX` pass, then the literal escapes of `=` and `&`
   * (backslash, u, 003d or 0026), `\/` to `/` and `\\` to `\`, each over the whole value, in this order.
   */
  function DecodeEscapes(raw: string): string {
    var s := UnescapeUnicode(raw);
    var s := ReplaceAll(s, "\\u003d", "=");
    var s := ReplaceAll(s, "\\u0026", "&");
    var s := ReplaceAll(s, "\\/", "/");
    ReplaceAll(s, "\\\\", "\\")
  }

  /** An unescaped value (no backslash) reaches `decodeURIComponent` unchanged. */
  lemma DecodeEscapesPlain(raw: string)
    requires '\\' !in raw
    ensures DecodeEscapes(raw) == raw
  {
    UnescapeUnicodePlain(raw);
    NotContainsForeignHead(raw, "\\u003d");
    NotContainsForeignHead(raw, "\\u0026");
    NotContainsForeignHead(raw, "\\/");
    NotContainsForeignHead(raw, "\\\\");
  }

  /** How JSON inside the result page writes an address: every `/` as `\/`. */
  function EscapeSlashes(s: string): string
    decreases |s|
  {
    if s == [] then [] else (if s[0] == '/' then "\\/" else [s[0]]) + EscapeSlashes(s[1..])
  }

  /** The `\uXXXX` pass leaves escaped slashes alone: each backslash is followed by `/`, not `u`. */
  lemma {:induction false} UnescapeKeepsEscapedSlashes(s: string)
    requires '\\' !in s
    ensures UnescapeUnicode(EscapeSlashes(s)) == EscapeSlashes(s)
    decreases |s|
  {
    if s != [] {
      var rest := EscapeSlashes(s[1..]);
      assert '\\' !in s[1..];
      UnescapeKeepsEscapedSlashes(s[1..]);
      if s[0] == '/' {
        var t := "\\/" + rest;
        assert t[1..] == "/" + rest && t[1..][1..] == rest;
      } else {
        var t := [s[0]] + rest;
        assert t[1..] == rest;
      }
    }
  }

  /** A pattern that starts with a backslash not followed by `/` never matches an escaped-slash text. */
  lemma {:induction false} ReplaceSkipsEscapedSlashes(s: string, pat: string, rep: string)
    requires '\\' !in s
    requires |pat| >= 2 && pat[0] == '\\' && pat[1] != '/'
    ensures ReplaceAll(EscapeSlashes(s), pat, rep) == EscapeSlashes(s)
    decreases |s|
  {
    if s != [] {
      var rest := EscapeSlashes(s[1..]);
      assert '\\' !in s[1..];
      ReplaceSkipsEscapedSlashes(s[1..], pat, rep);
      if s[0] == '/' {
        var t := "\\/" + rest;
        assert t[1..] == "/" + rest && t[1..][1..] == rest;
        assert !StartsWith(t, pat) by { assert t[1] == '/'; }
        assert !StartsWith(t[1..], pat) by { assert t[1..][0] == '/'; }
      } else {
        var t := [s[0]] + rest;
        assert t[1..] == rest;
        assert !StartsWith(t, pat) by { assert t[0] != '\\'; }
      }
    }
  }

  /** The `\/` pass turns every escaped slash back into `/`. */
  lemma {:induction false} UnescapeSlashes(s: string)
    requires '\\' !in s
    ensures ReplaceAll(EscapeSlashes(s), "\\/", "/") == s
    decreases |s|
  {
    if s != [] {
      var rest := EscapeSlashes(s[1..]);
      assert '\\' !in s[1..];
      UnescapeSlashes(s[1..]);
      if s[0] == '/' {
        var t := "\\/" + rest;
        assert StartsWith(t, "\\/") && t[2..] == rest;
      } else {
        var t := [s[0]] + rest;
        assert t[1..] == rest;
      }
      assert s == [s[0]] + s[1..];
    }
  }

  /**
   * content.js:400-401 undo the JSON escaping of slashes: an address written with `\/`
   * reaches `decodeURIComponent` as the address itself.
   */
  lemma DecodeEscapedSlashes(s: string)
    requires '\\' !in s
    ensures DecodeEscapes(EscapeSlashes(s)) == s
  {
    UnescapeKeepsEscapedSlashes(s);
    ReplaceSkipsEscapedSlashes(s, "\\u003d", "=");
    ReplaceSkipsEscapedSlashes(s, "\\u0026", "&");
    UnescapeSlashes(s);
    NotContainsForeignHead(s, "\\\\");
  }

  /** The address a captured value stands for, or None when `decodeURIComponent` throws. */
  function Candidate(raw: string, decode: string -> Option<string>): Option<string> {
    decode(DecodeEscapes(raw))
  }

  /** The decodable candidates of a list of captured values, in order. */
  function Candidates(raws: seq<string>, decode: string -> Option<string>): seq<string>
    decreases |raws|
  {
    if raws == [] then []
    else match Candidate(raws[0], decode)
      case Some(u) => [u] + Candidates(raws[1..], decode)
      case None => Candidates(raws[1..], decode)
  }

  // ---------------------------------------------------------------------------
  // Accepting addresses
  // ---------------------------------------------------------------------------

  /** Google proxy thumbnails are dropped unless the address also names the static-content host. */
  predicate PassesHostFilter(u: string) {
    !Contains(u, "googleusercontent.com") || Contains(u, "gstatic.com")
  }

  /** What every kept address satisfies, apart from not being a repeat. */
  predicate Acceptable(u: string) {
    StartsWith(u, "http") && PassesHostFilter(u)
  }

  predicate NoDuplicates(s: seq<string>) {
    forall i, j :: 0 <= i < j < |s| ==> s[i] != s[j]
  }

  /** The invariant of the `imageUrls` array: at most 20 distinct acceptable addresses. */
  predicate WellFormed(urls: seq<string>) {
    |urls| <= MaxUrls && NoDuplicates(urls) && forall i :: 0 <= i < |urls| ==> Acceptable(urls[i])
  }

  /** One loop iteration: push the candidate when it is an http address, new, and passes the host filter. */
  function Admit(acc: seq<string>, raw: string, decode: string -> Option<string>): seq<string> {
    match Candidate(raw, decode)
    case Some(u) => if StartsWith(u, "http") && u !in acc && PassesHostFilter(u) then acc + [u] else acc
    case None => acc
  }

  /**
   * One `while` loop over the captures of a family: it stops at the end of the captures or
   * as soon as 20 addresses have been accepted. It only appends, and it keeps WellFormed.
   */
  function Scan(acc: seq<string>, raws: seq<string>, decode: string -> Option<string>): (r: seq<string>)
    ensures acc <= r
    ensures WellFormed(acc) ==> WellFormed(r)
    decreases |raws|
  {
    if raws == [] || |acc| >= MaxUrls then acc
    else Scan(Admit(acc, raws[0], decode), raws[1..], decode)
  }

  /** The result of `extractImageUrlsFromHtml(html)`. */
  function Extracted(html: string, decode: string -> Option<string>): (r: seq<string>)
    ensures WellFormed(r)
  {
    var first := Scan([], Captures(html, 0, OriginalKeys), decode);
    if |first| < EnoughUrls then Scan(first, Captures(html, 0, ReferenceKeys), decode) else first
  }

  // ---------------------------------------------------------------------------
  // The loops
  // ---------------------------------------------------------------------------

  /** One `while ((match = pattern.exec(html)) !== null && imageUrls.length < 20)` loop. */
  method ScanFamily(html: string, keys: seq<string>, decode: string -> Option<string>, start: seq<string>)
    returns (imageUrls: seq<string>)
    ensures imageUrls == Scan(start, Captures(html, 0, keys), decode)
  {
    imageUrls := start;
    var lastIndex := 0;
    var match_ := NextMatch(html, lastIndex, keys);
    while match_.Some? && |imageUrls| < MaxUrls
      invariant lastIndex <= |html|
      invariant match_ == NextMatch(html, lastIndex, keys)
      invariant Scan(imageUrls, Captures(html, lastIndex, keys), decode) == Scan(start, Captures(html, 0, keys), decode)
      decreases |html| - lastIndex
    {
      var raw := match_.value.value;
      var url := UnescapeUnicode(raw);
      url := ReplaceAll(url, "\\u003d", "=");
      url := ReplaceAll(url, "\\u0026", "&");
      url := ReplaceAll(url, "\\/", "/");
      url := ReplaceAll(url, "\\\\", "\\");
      var decoded := decode(url);
      if decoded.Some? {
        url := decoded.value;
        if StartsWith(url, "http") && url !in imageUrls {
          if !Contains(url, "googleusercontent.com") || Contains(url, "gstatic.com") {
            imageUrls := imageUrls + [url];
          }
        }
      }
      lastIndex := match_.value.end;
      match_ := NextMatch(html, lastIndex, keys);
    }
  }

  /**
   * content.js:390-437. The original-image family first; the second family only when the
   * first gave fewer than 6. The result holds at most 20 distinct http addresses, none of
   * them a Google proxy thumbnail unless it also names the static-content host.
   */
  method ExtractImageUrlsFromHtml(html: string, decode: string -> Option<string>) returns (imageUrls: seq<string>)
    ensures imageUrls == Extracted(html, decode)
    ensures |imageUrls| <= MaxUrls && NoDuplicates(imageUrls)
    ensures forall i :: 0 <= i < |imageUrls| ==> StartsWith(imageUrls[i], "http") && PassesHostFilter(imageUrls[i])
  {
    imageUrls := ScanFamily(html, OriginalKeys, decode, []);
    if |imageUrls| < EnoughUrls {
      imageUrls := ScanFamily(html, ReferenceKeys, decode, imageUrls);
    }
  }

  // ---------------------------------------------------------------------------
  // Order and provenance
  // ---------------------------------------------------------------------------

  /** a can be obtained from b by deleting elements. */
  predicate IsSubsequence(a: seq<string>, b: seq<string>)
    decreases |b|
  {
    a == [] || (b != [] && if a[0] == b[0] then IsSubsequence(a[1..], b[1..]) else IsSubsequence(a, b[1..]))
  }

  lemma {:induction false} SubsequenceMembers(a: seq<string>, b: seq<string>)
    requires IsSubsequence(a, b)
    ensures forall x :: x in a ==> x in b
    decreases |b|
  {
    if a != [] {
      if a[0] == b[0] {
        SubsequenceMembers(a[1..], b[1..]);
        assert forall x :: x in a ==> x == a[0] || x in a[1..];
      } else {
        SubsequenceMembers(a, b[1..]);
      }
    }
  }

  lemma {:induction false} SubsequenceSkip(a: seq<string>, x: string, b: seq<string>)
    requires IsSubsequence(a, b)
    ensures IsSubsequence(a, [x] + b)
    decreases |b|, 1
  {
    assert ([x] + b)[1..] == b;
    if a != [] && a[0] == x {
      SubsequenceDropHead(a, b);
    }
  }

  lemma {:induction false} SubsequenceDropHead(a: seq<string>, b: seq<string>)
    requires a != [] && IsSubsequence(a, b)
    ensures IsSubsequence(a[1..], b)
    decreases |b|, 0
  {
    if a[0] == b[0] {
      SubsequenceSkip(a[1..], b[0], b[1..]);
    } else {
      SubsequenceDropHead(a, b[1..]);
      SubsequenceSkip(a[1..], b[0], b[1..]);
    }
    assert [b[0]] + b[1..] == b;
  }

  lemma {:induction false} SubsequenceConcat(a1: seq<string>, b1: seq<string>, a2: seq<string>, b2: seq<string>)
    requires IsSubsequence(a1, b1) && IsSubsequence(a2, b2)
    ensures IsSubsequence(a1 + a2, b1 + b2)
    decreases |b1|
  {
    if b1 == [] {
      assert a1 == [] && a1 + a2 == a2 && b1 + b2 == b2;
    } else if a1 == [] {
      SubsequenceConcat(a1, b1[1..], a2, b2);
      SubsequenceSkip(a1 + a2, b1[0], b1[1..] + b2);
      assert [b1[0]] + (b1[1..] + b2) == b1 + b2;
    } else {
      assert (b1 + b2)[0] == b1[0] && (b1 + b2)[1..] == b1[1..] + b2;
      assert (a1 + a2)[0] == a1[0] && (a1 + a2)[1..] == a1[1..] + a2;
      if a1[0] == b1[0] {
        SubsequenceConcat(a1[1..], b1[1..], a2, b2);
      } else {
        SubsequenceConcat(a1, b1[1..], a2, b2);
      }
    }
  }

  /** What one loop appends is a subsequence of the family's decodable candidates, in markup order. */
  lemma {:induction false} ScanKeepsOrder(acc: seq<string>, raws: seq<string>, decode: string -> Option<string>)
    ensures IsSubsequence(Scan(acc, raws, decode)[|acc|..], Candidates(raws, decode))
    decreases |raws|
  {
    var r := Scan(acc, raws, decode);
    if raws == [] || |acc| >= MaxUrls {
      assert r[|acc|..] == [];
    } else {
      var next := Admit(acc, raws[0], decode);
      var rest := raws[1..];
      ScanKeepsOrder(next, rest, decode);
      var tail := r[|next|..];
      match Candidate(raws[0], decode)
      case None =>
      case Some(u) =>
        assert Candidates(raws, decode) == [u] + Candidates(rest, decode);
        if next == acc + [u] {
          assert r[|acc|..] == [u] + tail;
          assert ([u] + tail)[1..] == tail;
        } else {
          SubsequenceSkip(tail, u, Candidates(rest, decode));
        }
    }
  }

  /** The two loops in sequence, over any two lists of captured values. */
  function TwoScans(raws1: seq<string>, raws2: seq<string>, decode: string -> Option<string>): seq<string> {
    var first := Scan([], raws1, decode);
    if |first| < EnoughUrls then Scan(first, raws2, decode) else first
  }

  lemma TwoScansOrder(raws1: seq<string>, raws2: seq<string>, decode: string -> Option<string>)
    ensures var first := Scan([], raws1, decode);
            var c1, c2 := Candidates(raws1, decode), Candidates(raws2, decode);
            && IsSubsequence(TwoScans(raws1, raws2, decode), c1 + c2)
            && (|first| >= EnoughUrls ==> IsSubsequence(TwoScans(raws1, raws2, decode), c1))
  {
    var c1, c2 := Candidates(raws1, decode), Candidates(raws2, decode);
    var first := Scan([], raws1, decode);
    ScanKeepsOrder([], raws1, decode);
    assert first[0..] == first;
    if |first| < EnoughUrls {
      var r := Scan(first, raws2, decode);
      ScanKeepsOrder(first, raws2, decode);
      assert r == first + r[|first|..];
      SubsequenceConcat(first, c1, r[|first|..], c2);
    } else {
      SubsequenceConcat(first, c1, [], c2);
      assert first + [] == first;
    }
  }

  lemma TwoScansMembers(raws1: seq<string>, raws2: seq<string>, decode: string -> Option<string>)
    ensures var first := Scan([], raws1, decode);
            forall u :: u in TwoScans(raws1, raws2, decode) ==>
              u in Candidates(raws1, decode) || (|first| < EnoughUrls && u in Candidates(raws2, decode))
  {
    var c1, c2 := Candidates(raws1, decode), Candidates(raws2, decode);
    var first := Scan([], raws1, decode);
    ScanKeepsOrder([], raws1, decode);
    assert first[0..] == first;
    SubsequenceMembers(first, c1);
    if |first| < EnoughUrls {
      var r := Scan(first, raws2, decode);
      ScanKeepsOrder(first, raws2, decode);
      SubsequenceMembers(r[|first|..], c2);
      assert forall u :: u in r ==> u in first || u in r[|first|..] by {
        assert r == first + r[|first|..];
      }
    }
  }

  /**
   * Every extracted address is a decoded value from the first family, or from the second
   * family when the first gave fewer than 6; and the result lists them in markup order,
   * the first family before the second.
   */
  lemma ExtractedProvenance(html: string, decode: string -> Option<string>)
    ensures var first := Scan([], Captures(html, 0, OriginalKeys), decode);
            var c1 := Candidates(Captures(html, 0, OriginalKeys), decode);
            var c2 := Candidates(Captures(html, 0, ReferenceKeys), decode);
            && IsSubsequence(Extracted(html, decode), c1 + c2)
            && (|first| >= EnoughUrls ==> IsSubsequence(Extracted(html, decode), c1))
            && forall u :: u in Extracted(html, decode) ==> u in c1 || (|first| < EnoughUrls && u in c2)
  {
    var raws1, raws2 := Captures(html, 0, OriginalKeys), Captures(html, 0, ReferenceKeys);
    assert Extracted(html, decode) == TwoScans(raws1, raws2, decode);
    TwoScansOrder(raws1, raws2, decode);
    TwoScansMembers(raws1, raws2, decode);
  }

  /** A loop that stopped short of 20 kept every acceptable candidate it saw. */
  lemma {:induction false} ScanComplete(acc: seq<string>, raws: seq<string>, decode: string -> Option<string>)
    ensures |Scan(acc, raws, decode)| < MaxUrls ==>
              forall u :: u in Candidates(raws, decode) && Acceptable(u) ==> u in Scan(acc, raws, decode)
    decreases |raws|
  {
    if raws != [] && |acc| < MaxUrls {
      var next := Admit(acc, raws[0], decode);
      ScanComplete(next, raws[1..], decode);
      var r := Scan(acc, raws, decode);
      assert next <= r;
      match Candidate(raws[0], decode)
      case None =>
      case Some(u) =>
        assert u in next || !Acceptable(u);
        assert forall v :: v in next ==> v in r;
    }
  }

  /**
   * Nothing acceptable is dropped unless the cap of 20 was reached: every decodable http
   * address of the first family that passes the host filter is in the result, and so is
   * every such address of the second family whenever the second family was scanned.
   */
  lemma ExtractedComplete(html: string, decode: string -> Option<string>)
    ensures var first := Scan([], Captures(html, 0, OriginalKeys), decode);
            var r := Extracted(html, decode);
            |r| < MaxUrls ==>
              && (forall u :: u in Candidates(Captures(html, 0, OriginalKeys), decode) && Acceptable(u) ==> u in r)
              && (|first| < EnoughUrls ==>
                    forall u :: u in Candidates(Captures(html, 0, ReferenceKeys), decode) && Acceptable(u) ==> u in r)
  {
    var raws1, raws2 := Captures(html, 0, OriginalKeys), Captures(html, 0, ReferenceKeys);
    var first := Scan([], raws1, decode);
    ScanComplete([], raws1, decode);
    if |first| < EnoughUrls {
      ScanComplete(first, raws2, decode);
      var r := Scan(first, raws2, decode);
      assert first <= r;
      assert forall v :: v in first ==> v in r;
    }
  }
}

=== FILE: image_hash.dfy ===
/**
 * The deterministic image sources of content.js: `simpleHash` (lines 186-194),
 * `getImageUrl` (lines 164-183) and the Unsplash address built by
 * `loadFallbackImages` (line 267). `Date.now()` is a parameter.
 */
module ImageSources {
  import opened JsText

  // ---------------------------------------------------------------------------
  // simpleHash
  // ---------------------------------------------------------------------------

  /**
   * The 31-multiplier string hash over UTF-16 code units, truncated to a signed
   * 32-bit integer after every unit: h := ToInt32(31 * h + c).
   */
  function StringHash(units: seq<nat>): (h: int)
    ensures -TwoTo31 <= h < TwoTo31
    decreases |units|
  {
    if units == [] then 0
    else ToInt32(31 * StringHash(units[..|units| - 1]) + units[|units| - 1])
  }

  /** The same sum without truncation: c[0] * 31^(n-1) + ... + c[n-1]. */
  function Polynomial(units: seq<nat>): int
    decreases |units|
  {
    if units == [] then 0 else 31 * Polynomial(units[..|units| - 1]) + units[|units| - 1]
  }

  /** One step as the loop writes it, `((h << 5) - h) + c` then `h & h`, is h := ToInt32(31 * h + c). */
  lemma ShiftStepIsTimes31(h: int, c: int)
    requires -TwoTo31 <= h < TwoTo31
    ensures ToInt32(ToInt32(h * 32) - h + c) == ToInt32(31 * h + c)
  {
    var s := ToInt32(h * 32);
    var k := (h * 32 - s) / TwoTo32;
    assert h * 32 - s == k * TwoTo32;
    ToInt32Congruent(s - h + c, 31 * h + c, -k);
  }

  /** Truncating after every step gives the truncated polynomial: the usual 32-bit string hash. */
  lemma {:induction false} StringHashIsTruncatedPolynomial(units: seq<nat>)
    ensures StringHash(units) == ToInt32(Polynomial(units))
    decreases |units|
  {
    if units != [] {
      var init, c := units[..|units| - 1], units[|units| - 1];
      StringHashIsTruncatedPolynomial(init);
      var p := Polynomial(init);
      var k := (p - ToInt32(p)) / TwoTo32;
      assert p - ToInt32(p) == k * TwoTo32;
      ToInt32Congruent(31 * p + c, 31 * ToInt32(p) + c, 31 * k);
    }
  }

  function Abs(x: int): nat {
    if x < 0 then -x else x
  }

  /** What `simpleHash(s)` returns: the absolute value of the 32-bit hash of s's code units. */
  function JsHash(s: string): (h: nat)
    ensures h <= TwoTo31
  {
    Abs(StringHash(Utf16(s)))
  }

  /**
   * content.js:186-194. The loop over `charCodeAt`, with `<<` and `&` truncating to 32 bits
   * as JavaScript does; the result lies in [0, 2^31].
   */
  method SimpleHash(s: string) returns (h: nat)
    ensures h == JsHash(s)
    ensures h <= TwoTo31
  {
    var units := Utf16(s);
    var hash := 0;
    for i := 0 to |units|
      invariant hash == StringHash(units[..i])
    {
      var code := units[i];
      ShiftStepIsTimes31(hash, code);
      assert units[..i + 1][..i] == units[..i];
      hash := ToInt32(hash * 32) - hash + code;
      hash := ToInt32(hash);
    }
    assert units[..|units|] == units;
    h := if hash < 0 then -hash else hash;
  }

  // ---------------------------------------------------------------------------
  // getImageUrl and the fallback grid's addresses
  // ---------------------------------------------------------------------------

  const UnsplashPrefix: string := "https://source.unsplash.com/600x400/?"
  const PicsumIdPrefix: string := "https://picsum.photos/id/"
  const PicsumRandomPrefix: string := "https://picsum.photos/600/400?random="

  /** `(hash % 1000) + 1`: a Picsum image id. */
  function ImageId(hash: nat): (id: nat)
    ensures 1 <= id <= 1000
  {
    hash % 1000 + 1
  }

  function UnsplashUrl(word: string, hash: nat): string {
    UnsplashPrefix + EncodeUriComponent(word) + "&sig=" + NatToDecimal(hash)
  }

  /** `${a}_${b}` */
  function Joined(a: nat, b: nat): string {
    NatToDecimal(a) + ("_" + NatToDecimal(b))
  }

  function PicsumIdUrl(id: nat, timestamp: nat, index: nat): string {
    PicsumIdPrefix + (NatToDecimal(id) + ("/600/400?t=" + Joined(timestamp, index)))
  }

  function PicsumRandomUrl(timestamp: nat, index: nat, hash: nat): string {
    PicsumRandomPrefix + (NatToDecimal(timestamp) + ("_" + Joined(index, hash)))
  }

  /**
   * content.js:164-183. The hash of `word + index` picks a Picsum id in [1, 1000]; the source
   * is `sources[min(index, 2)]`: Unsplash for index 0, the Picsum id for index 1, and a
   * timestamp-seeded random Picsum image for every later index.
   */
  function GetImageUrl(word: string, index: nat, timestamp: nat): (url: string)
    ensures index == 0 ==> url == UnsplashUrl(word, JsHash(word + "0"))
    ensures index == 1 ==> url == PicsumIdUrl(ImageId(JsHash(word + "1")), timestamp, 1)
    ensures index >= 2 ==> url == PicsumRandomUrl(timestamp, index, JsHash(word + NatToDecimal(index)))
  {
    var hash := JsHash(word + NatToDecimal(index));
    var imageId := ImageId(hash);
    var sources := [
      UnsplashUrl(word, hash),
      PicsumIdUrl(imageId, timestamp, index),
      PicsumRandomUrl(timestamp, index, hash)
    ];
    sources[if index < |sources| - 1 then index else |sources| - 1]
  }

  /** content.js:267. The address of the i-th image of the fallback grid. */
  function FallbackImageUrl(word: string, timestamp: nat, i: nat): string {
    UnsplashPrefix + EncodeUriComponent(word) + "&sig=" + Joined(timestamp, i)
  }

  // ---------------------------------------------------------------------------
  // What the addresses determine
  // ---------------------------------------------------------------------------

  /** A run of digits followed by a non-digit is read off uniquely. */
  lemma {:induction false} DigitRunUnique(a: string, x: string, b: string, y: string)
    requires AllDigits(a) && AllDigits(b)
    requires x != [] && !IsDigit(x[0]) && y != [] && !IsDigit(y[0])
    requires a + x == b + y
    ensures a == b && x == y
    decreases |a|
  {
    if a != [] { assert (a + x)[0] == a[0]; }
    if b != [] { assert (b + y)[0] == b[0]; }
    if a == [] {
      assert a + x == x;
      if b == [] { assert b + y == y; }
    } else if b != [] {
      assert (a + x)[0] == a[0] && (b + y)[0] == b[0];
      assert (a + x)[1..] == a[1..] + x && (b + y)[1..] == b[1..] + y;
      DigitRunUnique(a[1..], x, b[1..], y);
    }
  }

  lemma CommonPrefix(p: string, x: string, y: string)
    requires p + x == p + y
    ensures x == y
  {
    assert x == (p + x)[|p|..] && y == (p + y)[|p|..];
  }

  /** `${a}_${b}` names exactly one pair of numbers. */
  lemma JoinedInjective(a1: nat, b1: nat, a2: nat, b2: nat)
    requires Joined(a1, b1) == Joined(a2, b2)
    ensures a1 == a2 && b1 == b2
  {
    DigitRunUnique(NatToDecimal(a1), "_" + NatToDecimal(b1), NatToDecimal(a2), "_" + NatToDecimal(b2));
    DecimalInjective(a1, a2);
    CommonPrefix("_", NatToDecimal(b1), NatToDecimal(b2));
    DecimalInjective(b1, b2);
  }

  /** The Picsum id address names exactly one id, timestamp and index. */
  lemma PicsumIdUrlInjective(id1: nat, t1: nat, i1: nat, id2: nat, t2: nat, i2: nat)
    requires PicsumIdUrl(id1, t1, i1) == PicsumIdUrl(id2, t2, i2)
    ensures id1 == id2 && t1 == t2 && i1 == i2
  {
    var r1, r2 := "/600/400?t=" + Joined(t1, i1), "/600/400?t=" + Joined(t2, i2);
    CommonPrefix(PicsumIdPrefix, NatToDecimal(id1) + r1, NatToDecimal(id2) + r2);
    DigitRunUnique(NatToDecimal(id1), r1, NatToDecimal(id2), r2);
    DecimalInjective(id1, id2);
    CommonPrefix("/600/400?t=", Joined(t1, i1), Joined(t2, i2));
    JoinedInjective(t1, i1, t2, i2);
  }

  /**
   * Calls at different times give different addresses for every index from 1 on,
   * while the id of the index-1 address stays in [1, 1000] whatever the time.
   */
  lemma TimestampSeparatesCalls(word: string, index: nat, t1: nat, t2: nat)
    requires index >= 1 && t1 != t2
    ensures GetImageUrl(word, index, t1) != GetImageUrl(word, index, t2)
  {
    var hash := JsHash(word + NatToDecimal(index));
    if GetImageUrl(word, index, t1) == GetImageUrl(word, index, t2) {
      if index == 1 {
        PicsumIdUrlInjective(ImageId(hash), t1, index, ImageId(hash), t2, index);
      } else {
        var x := "_" + Joined(index, hash);
        CommonPrefix(PicsumRandomPrefix, NatToDecimal(t1) + x, NatToDecimal(t2) + x);
        DigitRunUnique(NatToDecimal(t1), x, NatToDecimal(t2), x);
        DecimalInjective(t1, t2);
      }
    }
  }

  /** For a word of ASCII letters the Unsplash query carries the word itself. */
  lemma UnsplashQueryIsWord(word: string, timestamp: nat)
    requires IsAsciiWord(word)
    ensures StartsWith(GetImageUrl(word, 0, timestamp), UnsplashPrefix + word + "&sig=")
  {
    EncodeAsciiWordUnchanged(word);
  }

  /** The six fallback images (and any two requested at different times) have distinct addresses. */
  lemma FallbackUrlsDistinct(word: string, t1: nat, i1: nat, t2: nat, i2: nat)
    requires (t1, i1) != (t2, i2)
    ensures FallbackImageUrl(word, t1, i1) != FallbackImageUrl(word, t2, i2)
  {
    var p := UnsplashPrefix + EncodeUriComponent(word) + "&sig=";
    if FallbackImageUrl(word, t1, i1) == FallbackImageUrl(word, t2, i2) {
      CommonPrefix(p, Joined(t1, i1), Joined(t2, i2));
      JoinedInjective(t1, i1, t2, i2);
    }
  }
}

=== FILE: js_text.dfy ===
/**
 * The JavaScript string and number built-ins that the extension's logic uses,
 * written out so that the rest of the model can reason about them:
 * `startsWith`, `includes`, `trim`, `replace` with a global literal pattern,
 * number-to-decimal conversion, the 32-bit truncation of bitwise operators,
 * `charCodeAt` (UTF-16 code units) and `encodeURIComponent`.
 */
module JsText {

  // ---------------------------------------------------------------------------
  // Substrings
  // ---------------------------------------------------------------------------

  /** `s.startsWith(p)` */
  predicate StartsWith(s: string, p: string) {
    |p| <= |s| && s[..|p|] == p
  }

  /** `s.includes(p)`: p occurs at some position of s (the empty string occurs everywhere). */
  predicate Contains(s: string, p: string)
    decreases |s|
  {
    StartsWith(s, p) || (|s| > 0 && Contains(s[1..], p))
  }

  /** A pattern whose first character does not occur in `a` cannot start inside `a`. */
  lemma {:induction false} ContainsAfterForeignPrefix(a: string, b: string, p: string)
    requires |p| > 0 && p[0] !in a
    ensures Contains(a + b, p) == Contains(b, p)
    decreases |a|
  {
    if a == [] {
      assert a + b == b;
    } else {
      assert (a + b)[0] == a[0];
      assert (a + b)[1..] == a[1..] + b;
      ContainsAfterForeignPrefix(a[1..], b, p);
    }
  }

  /** A pattern that starts `b` occurs in `a + b`, whatever `a` is. */
  lemma {:induction false} ContainsAt(a: string, b: string, p: string)
    requires StartsWith(b, p)
    ensures Contains(a + b, p)
    decreases |a|
  {
    if a == [] {
      assert a + b == b;
    } else {
      assert (a + b)[1..] == a[1..] + b;
      ContainsAt(a[1..], b, p);
    }
  }

  /** An occurrence in `b` is still an occurrence once anything is put in front of `b`. */
  lemma {:induction false} ContainsAfterPrefix(a: string, b: string, p: string)
    requires Contains(b, p)
    ensures Contains(a + b, p)
    decreases |a|
  {
    if a == [] {
      assert a + b == b;
    } else {
      assert (a + b)[1..] == a[1..] + b;
      ContainsAfterPrefix(a[1..], b, p);
    }
  }

  /** In particular a pattern whose first character is absent from `s` does not occur in `s`. */
  lemma NotContainsForeignHead(s: string, p: string)
    requires |p| > 0 && p[0] !in s
    ensures !Contains(s, p)
  {
    ContainsAfterForeignPrefix(s, [], p);
    assert s + [] == s;
  }

  /** `s.replace(/pat/g, rep)` for a literal pattern: left to right, non-overlapping, no rescanning. */
  function ReplaceAll(s: string, pat: string, rep: string): (r: string)
    requires |pat| > 0
    ensures !Contains(s, pat) ==> r == s
    decreases |s|
  {
    if s == [] then []
    else if StartsWith(s, pat) then rep + ReplaceAll(s[|pat|..], pat, rep)
    else [s[0]] + ReplaceAll(s[1..], pat, rep)
  }

  /**
   * The replacement does its work: the first occurrence of the pattern, found after a stretch
   * in which the pattern cannot start, is replaced, and the scan goes on after it.
   */
  lemma {:induction false} ReplaceAllAt(a: string, pat: string, rep: string, b: string)
    requires |pat| > 0 && pat[0] !in a
    ensures ReplaceAll(a + pat + b, pat, rep) == a + rep + ReplaceAll(b, pat, rep)
    decreases |a|
  {
    var s := a + pat + b;
    if a == [] {
      assert s == pat + b && s[..|pat|] == pat && s[|pat|..] == b;
    } else {
      assert s[0] == a[0] && s[0] != pat[0];
      assert s[1..] == a[1..] + pat + b;
      ReplaceAllAt(a[1..], pat, rep, b);
      assert a == [a[0]] + a[1..];
    }
  }

  // ---------------------------------------------------------------------------
  // String.prototype.trim
  // ---------------------------------------------------------------------------

  /**
   * ECMAScript WhiteSpace and LineTerminator code points: TAB, VT, FF, SP, NBSP,
   * ZWNBSP, the other space separators (category Zs), LF, CR, LS and PS.
   */
  predicate IsWhiteSpace(c: char) {
    c == '\t' || c == '\n' || c == '\U{000B}' || c == '\U{000C}' || c == '\r' || c == ' '
    || c == '\U{00A0}' || c == '\U{1680}' || ('\U{2000}' <= c <= '\U{200A}')
    || c == '\U{2028}' || c == '\U{2029}' || c == '\U{202F}' || c == '\U{205F}'
    || c == '\U{3000}' || c == '\U{FEFF}'
  }

  /** Drops leading white space: r is the suffix of s after a run of white space. */
  function TrimStart(s: string): (r: string)
    ensures |r| <= |s| && r == s[|s| - |r|..]
    ensures forall j :: 0 <= j < |s| - |r| ==> IsWhiteSpace(s[j])
    ensures r != [] ==> !IsWhiteSpace(r[0])
    decreases |s|
  {
    if s != [] && IsWhiteSpace(s[0]) then TrimStart(s[1..]) else s
  }

  /** Drops trailing white space: r is the prefix of s before a run of white space. */
  function TrimEnd(s: string): (r: string)
    ensures |r| <= |s| && r == s[..|r|]
    ensures forall j :: |r| <= j < |s| ==> IsWhiteSpace(s[j])
    ensures r != [] ==> !IsWhiteSpace(r[|r| - 1])
    decreases |s|
  {
    if s != [] && IsWhiteSpace(s[|s| - 1]) then TrimEnd(s[..|s| - 1]) else s
  }

  /**
   * `s.trim()`: the slice of s left once the white space at both ends is dropped, so that
   * neither end of the result is white space.
   */
  function Trim(s: string): (r: string)
    ensures exists i :: TrimmedAt(s, r, i)
    ensures r != [] ==> !IsWhiteSpace(r[0]) && !IsWhiteSpace(r[|r| - 1])
    ensures (s == [] || (!IsWhiteSpace(s[0]) && !IsWhiteSpace(s[|s| - 1]))) ==> r == s
    ensures r == [] <==> forall j :: 0 <= j < |s| ==> IsWhiteSpace(s[j])
  {
    var t := TrimStart(s);
    var r := TrimEnd(t);
    SliceBetweenWhiteSpace(s, t, r);
    assert r != [] ==> r[0] == t[0];
    assert r == [] ==> t == [];
    r
  }

  /**
   * A suffix of s after white space, cut before white space, is a slice of s with only
   * white space around it.
   */
  lemma SliceBetweenWhiteSpace(s: string, t: string, r: string)
    requires |t| <= |s| && t == s[|s| - |t|..]
    requires forall j :: 0 <= j < |s| - |t| ==> IsWhiteSpace(s[j])
    requires |r| <= |t| && r == t[..|r|]
    requires forall j :: |r| <= j < |t| ==> IsWhiteSpace(t[j])
    ensures TrimmedAt(s, r, |s| - |t|)
  {
    var i := |s| - |t|;
    forall k | i + |r| <= k < |s|
      ensures IsWhiteSpace(s[k])
    {
      assert s[k] == t[k - i];
    }
    assert s[i..i + |r|] == r;
  }

  /** r is the slice of s starting at i, and everything of s outside that slice is white space. */
  predicate TrimmedAt(s: string, r: string, i: int) {
    0 <= i <= |s| - |r| && s[i..i + |r|] == r
    && (forall k :: 0 <= k < i ==> IsWhiteSpace(s[k]))
    && (forall k :: i + |r| <= k < |s| ==> IsWhiteSpace(s[k]))
  }

  // ---------------------------------------------------------------------------
  // Numbers
  // ---------------------------------------------------------------------------

  predicate IsDigit(c: char) {
    '0' <= c <= '9'
  }

  predicate AllDigits(s: string) {
    forall i :: 0 <= i < |s| ==> IsDigit(s[i])
  }

  function DigitChar(d: nat): (c: char)
    requires d < 10
    ensures IsDigit(c)
  {
    ('0' as int + d) as char
  }

  /** `String(n)` / `${n}` for a non-negative integer: its decimal digits, no leading zero. */
  function NatToDecimal(n: nat): (r: string)
    ensures |r| >= 1 && AllDigits(r)
    ensures r[0] == '0' ==> n == 0
    decreases n
  {
    if n < 10 then [DigitChar(n)] else NatToDecimal(n / 10) + [DigitChar(n % 10)]
  }

  /** The number a string of decimal digits denotes. */
  function DecimalValue(s: string): nat
    requires AllDigits(s)
    decreases |s|
  {
    if s == [] then 0 else DecimalValue(s[..|s| - 1]) * 10 + (s[|s| - 1] as int - '0' as int)
  }

  /** Reading back the decimal text of a number gives the number. */
  lemma {:induction false} DecimalRoundTrip(n: nat)
    ensures DecimalValue(NatToDecimal(n)) == n
    decreases n
  {
    var r := NatToDecimal(n);
    if n >= 10 {
      DecimalRoundTrip(n / 10);
      assert r[..|r| - 1] == NatToDecimal(n / 10);
    }
  }

  /** Different numbers have different decimal texts. */
  lemma DecimalInjective(a: nat, b: nat)
    requires NatToDecimal(a) == NatToDecimal(b)
    ensures a == b
  {
    DecimalRoundTrip(a);
    DecimalRoundTrip(b);
  }

  /** `Math.min(a, b)` */
  function Min(a: int, b: int): int {
    if a < b then a else b
  }

  const TwoTo31: int := 0x8000_0000
  const TwoTo32: int := 0x1_0000_0000

  /** ECMAScript ToInt32: the signed 32-bit integer congruent to x modulo 2^32. */
  function ToInt32(x: int): (r: int)
    ensures -TwoTo31 <= r < TwoTo31
    ensures (x - r) % TwoTo32 == 0
  {
    var m := x % TwoTo32;
    if m >= TwoTo31 then m - TwoTo32 else m
  }

  /** ToInt32 only depends on its argument modulo 2^32. */
  lemma ToInt32Congruent(x: int, y: int, k: int)
    requires x == y + k * TwoTo32
    ensures ToInt32(x) == ToInt32(y)
  {
    var q, m := y / TwoTo32, y % TwoTo32;
    assert y == q * TwoTo32 + m;
    assert x == (q + k) * TwoTo32 + m;
    assert x % TwoTo32 == m;
  }

  /** ToInt32 leaves a value already in the signed 32-bit range unchanged. */
  lemma ToInt32InRange(x: int)
    requires -TwoTo31 <= x < TwoTo31
    ensures ToInt32(x) == x
  {
    if x < 0 {
      ToInt32Congruent(x, x + TwoTo32, -1);
    }
  }

  // ---------------------------------------------------------------------------
  // Code units and URI encoding
  // ---------------------------------------------------------------------------

  /** The UTF-16 code units of one code point (one unit in the BMP, else a surrogate pair). */
  function CodeUnits(c: char): (u: seq<nat>)
    ensures 1 <= |u| <= 2 && forall i :: 0 <= i < |u| ==> u[i] < 0x1_0000
    ensures c as int < 0x1_0000 ==> u == [c as int]
  {
    var v := c as int;
    if v < 0x1_0000 then [v]
    else
      var w := v - 0x1_0000;
      [0xD800 + w / 0x400, 0xDC00 + w % 0x400]
  }

  /** The sequence `s.charCodeAt(0), ..., s.charCodeAt(s.length - 1)`. */
  function Utf16(s: string): (u: seq<nat>)
    ensures |u| >= |s|
    ensures forall i :: 0 <= i < |u| ==> u[i] < 0x1_0000
    decreases |s|
  {
    if s == [] then [] else CodeUnits(s[0]) + Utf16(s[1..])
  }

  predicate IsAsciiLetter(c: char) {
    'A' <= c <= 'Z' || 'a' <= c <= 'z'
  }

  /** Characters that `encodeURIComponent` leaves as they are. */
  predicate IsUriUnreserved(c: char) {
    IsAsciiLetter(c) || IsDigit(c) || c in "-_.!~*'()"
  }

  predicate IsUpperHexDigit(c: char) {
    IsDigit(c) || 'A' <= c <= 'F'
  }

  function HexDigit(d: nat): (c: char)
    requires d < 16
    ensures IsUpperHexDigit(c)
  {
    if d < 10 then DigitChar(d) else ('A' as int + (d - 10)) as char
  }

  /** The UTF-8 bytes of one code point. */
  function Utf8(c: char): (b: seq<nat>)
    ensures 1 <= |b| <= 4 && forall i :: 0 <= i < |b| ==> b[i] < 256
  {
    var v := c as int;
    if v < 0x80 then [v]
    else if v < 0x800 then [0xC0 + v / 0x40, 0x80 + v % 0x40]
    else if v < 0x1_0000 then [0xE0 + v / 0x1000, 0x80 + (v / 0x40) % 0x40, 0x80 + v % 0x40]
    else [0xF0 + v / 0x4_0000, 0x80 + (v / 0x1000) % 0x40, 0x80 + (v / 0x40) % 0x40, 0x80 + v % 0x40]
  }

  /** Every `%` in s opens an escape: two upper-case hexadecimal digits follow it. */
  predicate PercentEscaped(s: string) {
    forall i :: 0 <= i < |s| && s[i] == '%' ==> i + 2 < |s| && IsUpperHexDigit(s[i + 1]) && IsUpperHexDigit(s[i + 2])
  }

  /** Escapes survive concatenation: no escape of `a` runs past its end. */
  lemma PercentEscapedAppend(a: string, b: string)
    requires PercentEscaped(a) && PercentEscaped(b)
    ensures PercentEscaped(a + b)
  {
    forall i | 0 <= i < |a + b| && (a + b)[i] == '%'
      ensures i + 2 < |a + b| && IsUpperHexDigit((a + b)[i + 1]) && IsUpperHexDigit((a + b)[i + 2])
    {
      if i < |a| {
        assert a[i] == '%';
      } else {
        assert b[i - |a|] == '%';
      }
    }
  }

  /** `%XX` for every byte, upper-case hexadecimal. */
  function PercentBytes(b: seq<nat>): (r: string)
    requires forall i :: 0 <= i < |b| ==> b[i] < 256
    ensures |r| == 3 * |b|
    ensures forall i :: 0 <= i < |r| ==> r[i] == '%' || IsUpperHexDigit(r[i])
    ensures PercentEscaped(r)
    ensures forall k :: 0 <= k < |b| ==> r[3 * k..3 * k + 3] == ['%', HexDigit(b[k] / 16), HexDigit(b[k] % 16)]
    decreases |b|
  {
    if b == [] then []
    else
      var head := ['%', HexDigit(b[0] / 16), HexDigit(b[0] % 16)];
      PercentEscapedAppend(head, PercentBytes(b[1..]));
      PercentChunks(b, head, PercentBytes(b[1..]));
      head + PercentBytes(b[1..])
  }

  /** Escaping the first byte in front of the escapes of the rest puts chunk k at 3k. */
  lemma PercentChunks(b: seq<nat>, head: string, tail: string)
    requires |b| > 0 && forall i :: 0 <= i < |b| ==> b[i] < 256
    requires head == ['%', HexDigit(b[0] / 16), HexDigit(b[0] % 16)]
    requires |tail| == 3 * (|b| - 1)
    requires forall k :: 0 <= k < |b| - 1 ==> tail[3 * k..3 * k + 3] == ['%', HexDigit(b[k + 1] / 16), HexDigit(b[k + 1] % 16)]
    ensures forall k :: 0 <= k < |b| ==> (head + tail)[3 * k..3 * k + 3] == ['%', HexDigit(b[k] / 16), HexDigit(b[k] % 16)]
  {
    forall k | 0 <= k < |b|
      ensures (head + tail)[3 * k..3 * k + 3] == ['%', HexDigit(b[k] / 16), HexDigit(b[k] % 16)]
    {
      if k == 0 {
        assert (head + tail)[0..3] == head;
      } else {
        assert (head + tail)[3 * k..3 * k + 3] == tail[3 * (k - 1)..3 * (k - 1) + 3];
      }
    }
  }

  /** Whether c may appear in the output of `encodeURIComponent`. */
  predicate IsEncodedUriChar(c: char) {
    IsUriUnreserved(c) || c == '%'
  }

  /** What one character becomes: itself when unreserved, else the `%XX` escapes of its UTF-8 bytes. */
  function EncodedChar(c: char): (r: string)
    ensures forall i :: 0 <= i < |r| ==> IsEncodedUriChar(r[i])
    ensures PercentEscaped(r) && |r| >= 1
  {
    if IsUriUnreserved(c) then [c] else PercentBytes(Utf8(c))
  }

  /**
   * `encodeURIComponent(s)` (section 19.2.6.5 of ECMA-262): unreserved characters are kept,
   * every other code point is replaced by the percent-encoding of its UTF-8 bytes.
   * Dafny strings hold no lone surrogates, so the URIError case of the built-in cannot arise.
   */
  function EncodeUriComponent(s: string): (r: string)
    ensures |r| >= |s|
    ensures forall i :: 0 <= i < |r| ==> IsEncodedUriChar(r[i])
    ensures PercentEscaped(r)
    decreases |s|
  {
    if s == [] then []
    else
      var head := EncodedChar(s[0]);
      PercentEscapedAppend(head, EncodeUriComponent(s[1..]));
      head + EncodeUriComponent(s[1..])
  }


  /** The encoding works character by character: it splits over concatenation. */
  lemma {:induction false} EncodeUriComponentAppend(a: string, b: string)
    ensures EncodeUriComponent(a + b) == EncodeUriComponent(a) + EncodeUriComponent(b)
    decreases |a|
  {
    if a == [] {
      assert a + b == b;
    } else {
      assert (a + b)[0] == a[0];
      assert (a + b)[1..] == a[1..] + b;
      EncodeUriComponentAppend(a[1..], b);
    }
  }

  /** So each character of the input is replaced by its own encoding, wherever it stands. */
  lemma EncodeUriComponentPerChar(a: string, c: char, b: string)
    ensures EncodeUriComponent(a + [c] + b) == EncodeUriComponent(a) + EncodedChar(c) + EncodeUriComponent(b)
  {
    EncodeUriComponentAppend(a + [c], b);
    EncodeUriComponentAppend(a, [c]);
    EncodeSingle(c);
  }

  lemma EncodeSingle(c: char)
    ensures EncodeUriComponent([c]) == EncodedChar(c)
  {
    assert [c][0] == c && [c][1..] == [];
  }

  predicate IsAsciiWord(s: string) {
    forall i :: 0 <= i < |s| ==> IsAsciiLetter(s[i])
  }

  /** A word made of ASCII letters is passed through `encodeURIComponent` unchanged. */
  lemma {:induction false} EncodeAsciiWordUnchanged(s: string)
    requires IsAsciiWord(s)
    ensures EncodeUriComponent(s) == s
    decreases |s|
  {
    if s != [] {
      EncodeAsciiWordUnchanged(s[1..]);
    }
  }
}

=== FILE: load_progress.dfy ===
/**
 * The load-progress counters of the two image grids: the Google grid built by
 * `loadMoreImages` (content.js:469-562) and the fallback grid of `loadFallbackImages`
 * (content.js:209-264). Each image's `onload`, `onerror` and (Google grid only) 8-second
 * timeout callback updates the shared `loadedCount` and `successCount` and the loading text.
 *
 * Callbacks run one at a time, so a run is a sequence of events applied in order. Besides the
 * two counters the state records, per image, whether its timeout is still scheduled, whether the
 * timeout counted it, and how the image settled, which is what the browser remembers.
 */
module LoadProgress {
  import opened Wrappers
  import opened JsText

  const MaxImages: nat := 6
  const GoogleLoadingText: string := "正在从 Google 搜索图片..."
  const FallbackLoadingText: string := "正在加载备用图片源..."
  const AllFailedOnLoadText: string := "所有图片加载失败，请检查网络连接"
  const AllFailedText: string := "所有图片加载失败（可能是 CORS 限制），尝试刷新或检查网络"
  const TimeoutText: string := "图片加载超时，请检查网络"
  const FallbackFailedText: string := "图片加载失败，请检查网络连接"

  datatype Grid = GoogleImages | FallbackImages

  /** The loading text: its content, whether it is displayed, and whether it has been coloured red. */
  datatype Banner = Banner(text: string, visible: bool, red: bool)

  /** One image: its pending timeout, whether the timeout counted it, and how it settled (true: loaded). */
  datatype Slot = Slot(timerPending: bool, timedOut: bool, outcome: Option<bool>)

  datatype Progress = Progress(grid: Grid, total: nat, loaded: nat, success: nat, slots: seq<Slot>, banner: Banner)

  /** A callback of image i; `rendered` is `img.complete && img.naturalWidth` when the timeout fires. */
  datatype Event = Loaded(i: nat) | Errored(i: nat) | TimedOut(i: nat, rendered: bool)

  function LoadingText(grid: Grid): string {
    if grid == GoogleImages then GoogleLoadingText else FallbackLoadingText
  }

  /** The red failure text. */
  function Alert(text: string): Banner {
    Banner(text, true, true)
  }

  /** content.js:469-499: min(n, 6) images, each with a scheduled timeout. */
  function StartGoogle(urlCount: nat): (p: Progress)
    requires urlCount >= 1
    ensures 1 <= p.total <= MaxImages && p.total == Min(urlCount, MaxImages)
  {
    var total := Min(urlCount, MaxImages);
    Progress(GoogleImages, total, 0, 0, seq(total, _ => Slot(true, false, None)), Banner(GoogleLoadingText, true, false))
  }

  /** content.js:202-211: always six images and no timeouts. */
  function StartFallback(): Progress {
    Progress(FallbackImages, MaxImages, 0, 0, seq(MaxImages, _ => Slot(false, false, None)),
             Banner(FallbackLoadingText, true, false))
  }

  /**
   * An event can happen: it names one of the grid's images, and `onload`/`onerror` fire
   * at most once per image (a timeout may fire whatever the image's state).
   */
  predicate Enabled(p: Progress, e: Event) {
    |p.slots| == p.total && e.i < p.total
    && (e.Loaded? || e.Errored? ==> p.slots[e.i].outcome.None?)
  }

  /** The effect of one callback. */
  function Step(p: Progress, e: Event): (q: Progress)
    requires Enabled(p, e)
    ensures q.grid == p.grid && q.total == p.total && |q.slots| == |p.slots|
    ensures e.Loaded? ==> q.loaded == p.loaded + 1 && q.success == p.success + 1
    ensures e.Errored? ==> q.loaded == p.loaded + 1 && q.success == p.success
    ensures e.TimedOut? ==>
              q.success == p.success
              && q.loaded == p.loaded + (if p.slots[e.i].timerPending && !e.rendered then 1 else 0)
    ensures e.Loaded? && p.success == 0 ==> !q.banner.visible
  {
    match e
    case Loaded(i) =>
      // clearTimeout (a no-op on the fallback grid), then both counters
      var slots := p.slots[i := p.slots[i].(timerPending := false, outcome := Some(true))];
      var success, loaded := p.success + 1, p.loaded + 1;
      var banner :=
        if p.grid == GoogleImages then
          var b := if success == 1 then p.banner.(visible := false) else p.banner;
          if loaded == p.total then (if success == 0 then Alert(AllFailedOnLoadText) else b.(visible := false))
          else b
        else
          var b := if success >= 1 then p.banner.(visible := false) else p.banner;
          if loaded == p.total && success == 0 then Alert(FallbackFailedText) else b;
      Progress(p.grid, p.total, loaded, success, slots, banner)
    case Errored(i) =>
      var slots := p.slots[i := p.slots[i].(timerPending := false, outcome := Some(false))];
      var loaded := p.loaded + 1;
      var banner :=
        if loaded == p.total then
          if p.success == 0 then Alert(if p.grid == GoogleImages then AllFailedText else FallbackFailedText)
          else p.banner.(visible := false)
        else p.banner;
      p.(loaded := loaded, slots := slots, banner := banner)
    case TimedOut(i, rendered) =>
      if !p.slots[i].timerPending then p
      else if rendered then p.(slots := p.slots[i := p.slots[i].(timerPending := false)])
      else
        var loaded := p.loaded + 1;
        var slots := p.slots[i := p.slots[i].(timerPending := false, timedOut := true)];
        var banner := if loaded == p.total && p.success == 0 then Alert(TimeoutText) else p.banner;
        p.(loaded := loaded, slots := slots, banner := banner)
  }

  // ---------------------------------------------------------------------------
  // Counting images
  // ---------------------------------------------------------------------------

  datatype Mark = SettledMark | SucceededMark | TimedOutMark

  predicate Marked(s: Slot, m: Mark) {
    match m
    case SettledMark => s.outcome.Some?
    case SucceededMark => s.outcome == Some(true)
    case TimedOutMark => s.timedOut
  }

  /** How many images carry the mark. */
  function Tally(slots: seq<Slot>, m: Mark): (n: nat)
    ensures n <= |slots|
    decreases |slots|
  {
    if slots == [] then 0
    else Tally(slots[..|slots| - 1], m) + (if Marked(slots[|slots| - 1], m) then 1 else 0)
  }

  /** Changing one image changes a tally by what that image contributes. */
  lemma {:induction false} TallyUpdate(slots: seq<Slot>, i: nat, s: Slot, m: Mark)
    requires i < |slots|
    ensures Tally(slots[i := s], m) + (if Marked(slots[i], m) then 1 else 0)
            == Tally(slots, m) + (if Marked(s, m) then 1 else 0)
    decreases |slots|
  {
    var n := |slots|;
    if i < n - 1 {
      assert slots[i := s][..n - 1] == slots[..n - 1][i := s];
      TallyUpdate(slots[..n - 1], i, s, m);
    } else {
      assert slots[i := s][..n - 1] == slots[..n - 1];
    }
  }

  /** A tally is full exactly when every image carries the mark. */
  lemma {:induction false} TallyFull(slots: seq<Slot>, m: Mark)
    ensures Tally(slots, m) == |slots| <==> forall i :: 0 <= i < |slots| ==> Marked(slots[i], m)
    decreases |slots|
  {
    if slots != [] {
      var init := slots[..|slots| - 1];
      TallyFull(init, m);
      if forall i :: 0 <= i < |slots| ==> Marked(slots[i], m) {
        assert forall i :: 0 <= i < |init| ==> Marked(init[i], m) by {
          forall i | 0 <= i < |init| ensures Marked(init[i], m) {
            assert init[i] == slots[i];
          }
        }
      }
    }
  }

  /** A tally is zero exactly when no image carries the mark. */
  lemma {:induction false} TallyEmpty(slots: seq<Slot>, m: Mark)
    ensures Tally(slots, m) == 0 <==> forall i :: 0 <= i < |slots| ==> !Marked(slots[i], m)
    decreases |slots|
  {
    if slots != [] {
      var init := slots[..|slots| - 1];
      TallyEmpty(init, m);
      if forall i :: 0 <= i < |slots| ==> !Marked(slots[i], m) {
        assert forall i :: 0 <= i < |init| ==> !Marked(init[i], m) by {
          forall i | 0 <= i < |init| ensures !Marked(init[i], m) {
            assert init[i] == slots[i];
          }
        }
      }
    }
  }

  // ---------------------------------------------------------------------------
  // The invariant
  // ---------------------------------------------------------------------------

  /**
   * What every reachable state satisfies: `loadedCount` counts each settled image plus each
   * image its timeout counted, `successCount` counts the loaded images (so it never exceeds
   * `loadedCount`), a settled or fired timeout is no longer pending, the fallback grid has no
   * timeouts, and the loading text is shown exactly while nothing has loaded, in red exactly
   * once `loadedCount` has reached `totalImages`.
   */
  ghost predicate Consistent(p: Progress) {
    && 1 <= p.total && |p.slots| == p.total
    && p.loaded == Tally(p.slots, SettledMark) + Tally(p.slots, TimedOutMark)
    && p.success == Tally(p.slots, SucceededMark)
    && p.success <= p.loaded
    && (forall i :: 0 <= i < |p.slots| ==> p.slots[i].outcome.Some? ==> !p.slots[i].timerPending)
    && (forall i :: 0 <= i < |p.slots| ==> p.slots[i].timedOut ==> !p.slots[i].timerPending)
    && (p.grid == FallbackImages ==> forall i :: 0 <= i < |p.slots| ==> !p.slots[i].timerPending && !p.slots[i].timedOut)
    && (p.banner.visible <==> p.success == 0)
    && (p.banner.visible ==> (p.banner.red <==> p.loaded >= p.total))
    && (p.banner.visible && !p.banner.red ==> p.banner.text == LoadingText(p.grid))
  }

  lemma StartGoogleConsistent(urlCount: nat)
    requires urlCount >= 1
    ensures Consistent(StartGoogle(urlCount))
  {
    var p := StartGoogle(urlCount);
    TallyEmpty(p.slots, SettledMark);
    TallyEmpty(p.slots, SucceededMark);
    TallyEmpty(p.slots, TimedOutMark);
  }

  lemma StartFallbackConsistent()
    ensures Consistent(StartFallback())
  {
    var p := StartFallback();
    TallyEmpty(p.slots, SettledMark);
    TallyEmpty(p.slots, SucceededMark);
    TallyEmpty(p.slots, TimedOutMark);
  }

  /** Every callback keeps the invariant. */
  lemma StepConsistent(p: Progress, e: Event)
    requires Consistent(p) && Enabled(p, e)
    ensures Consistent(Step(p, e))
  {
    var q := Step(p, e);
    var i := e.i;
    TallyUpdate(p.slots, i, q.slots[i], SettledMark);
    TallyUpdate(p.slots, i, q.slots[i], SucceededMark);
    TallyUpdate(p.slots, i, q.slots[i], TimedOutMark);
    assert q.slots == p.slots[i := q.slots[i]];
  }

  /** After a success the loading text is hidden, on both grids. */
  lemma SuccessHidesText(p: Progress, i: nat)
    requires Consistent(p) && Enabled(p, Loaded(i))
    ensures !Step(p, Loaded(i)).banner.visible
  {
    StepConsistent(p, Loaded(i));
  }

  /**
   * While no timeout has counted an image, `loadedCount` reaches `totalImages` exactly when
   * every image has loaded or failed; the text then turns red exactly when none loaded.
   */
  lemma CompletionWithoutTimeouts(p: Progress)
    requires Consistent(p) && Tally(p.slots, TimedOutMark) == 0
    ensures p.loaded <= p.total
    ensures p.loaded == p.total <==> forall i :: 0 <= i < |p.slots| ==> p.slots[i].outcome.Some?
    ensures p.loaded == p.total ==>
              (p.banner.visible && p.banner.red <==> forall i :: 0 <= i < |p.slots| ==> p.slots[i].outcome == Some(false))
  {
    TallyFull(p.slots, SettledMark);
    TallyEmpty(p.slots, SucceededMark);
    if p.loaded == p.total {
      assert forall i :: 0 <= i < |p.slots| ==> Marked(p.slots[i], SettledMark);
      forall i | 0 <= i < |p.slots|
        ensures p.slots[i].outcome == Some(false) <==> !Marked(p.slots[i], SucceededMark)
      {
        assert Marked(p.slots[i], SettledMark);
        var o := p.slots[i].outcome;
        if o.value {
          assert o == Some(true);
        } else {
          assert o == Some(false);
        }
      }
    }
  }

  // ---------------------------------------------------------------------------
  // Runs of callbacks
  // ---------------------------------------------------------------------------

  /** Every event of the run can happen in the state the previous ones leave. */
  predicate RunEnabled(p: Progress, es: seq<Event>)
    decreases |es|
  {
    es == [] || (Enabled(p, es[0]) && RunEnabled(Step(p, es[0]), es[1..]))
  }

  function Run(p: Progress, es: seq<Event>): Progress
    requires RunEnabled(p, es)
    decreases |es|
  {
    if es == [] then p else Run(Step(p, es[0]), es[1..])
  }

  /** The handler's `loadedCount === totalImages` test passes: the event counted and reached the total. */
  predicate Completes(p: Progress, e: Event)
    requires Enabled(p, e)
  {
    Step(p, e).loaded == p.loaded + 1 && Step(p, e).loaded == p.total
  }

  /** How many callbacks of the run find the grid complete. */
  function Completions(p: Progress, es: seq<Event>): nat
    requires RunEnabled(p, es)
    decreases |es|
  {
    if es == [] then 0
    else (if Completes(p, es[0]) then 1 else 0) + Completions(Step(p, es[0]), es[1..])
  }

  /** The invariant holds after any run. */
  lemma {:induction false} RunConsistent(p: Progress, es: seq<Event>)
    requires Consistent(p) && RunEnabled(p, es)
    ensures Consistent(Run(p, es))
    decreases |es|
  {
    if es != [] {
      StepConsistent(p, es[0]);
      RunConsistent(Step(p, es[0]), es[1..]);
    }
  }

  /** Counters never go down, and the success count never passes the loaded count. */
  lemma {:induction false} RunMonotone(p: Progress, es: seq<Event>)
    requires RunEnabled(p, es)
    ensures Run(p, es).loaded >= p.loaded && Run(p, es).success >= p.success
    ensures Run(p, es).total == p.total && Run(p, es).grid == p.grid
    decreases |es|
  {
    if es != [] {
      RunMonotone(Step(p, es[0]), es[1..]);
    }
  }

  /** The completion branch runs at most once per grid, and never once the total was reached. */
  lemma {:induction false} CompletesAtMostOnce(p: Progress, es: seq<Event>)
    requires RunEnabled(p, es)
    ensures Completions(p, es) <= (if p.loaded < p.total then 1 else 0)
    decreases |es|
  {
    if es != [] {
      var q := Step(p, es[0]);
      CompletesAtMostOnce(q, es[1..]);
    }
  }

  /** Without timeouts every `onload`/`onerror` counts once: the counters advance by the events. */
  lemma {:induction false} RunWithoutTimeouts(p: Progress, es: seq<Event>)
    requires RunEnabled(p, es)
    requires forall k :: 0 <= k < |es| ==> !es[k].TimedOut?
    ensures Run(p, es).loaded == p.loaded + |es|
    ensures Run(p, es).success == p.success + LoadedEvents(es)
    decreases |es|
  {
    if es != [] {
      RunWithoutTimeouts(Step(p, es[0]), es[1..]);
    }
  }

  function LoadedEvents(es: seq<Event>): nat
    decreases |es|
  {
    if es == [] then 0 else (if es[0].Loaded? then 1 else 0) + LoadedEvents(es[1..])
  }

  /**
   * A timeout does not cancel the image's own callback: with two images, image 0 timing out
   * and then loading counts twice, so `loadedCount` reaches `totalImages` while image 1 is
   * still loading with its timeout pending.
   */
  lemma TimeoutThenLoadCountsTwice()
    ensures var p := StartGoogle(2);
            var es := [TimedOut(0, false), Loaded(0)];
            RunEnabled(p, es)
            && Run(p, es).loaded == Run(p, es).total
            && Run(p, es).slots[1] == Slot(true, false, None)
  {
    var p := StartGoogle(2);
    var q := Step(p, TimedOut(0, false));
    assert q.slots[0] == Slot(false, true, None);
    var r := Step(q, Loaded(0));
    assert RunEnabled(r, []);
    assert [TimedOut(0, false), Loaded(0)][1..] == [Loaded(0)];
    assert [Loaded(0)][1..] == [];
  }

  // ---------------------------------------------------------------------------
  // The grid as the callbacks see it
  // ---------------------------------------------------------------------------

  /** The variables the callbacks of one grid close over, updated in place. */
  class ImageGrid {
    const grid: Grid
    const totalImages: nat
    var loadedCount: nat
    var successCount: nat
    var images: seq<Slot>
    var loadingText: Banner

    function State(): Progress
      reads this
    {
      Progress(grid, totalImages, loadedCount, successCount, images, loadingText)
    }

    ghost predicate Valid()
      reads this
    {
      Consistent(State())
    }

    /** content.js:469-499: the Google grid for a non-empty list of n addresses. */
    constructor ForGoogle(urlCount: nat)
      requires urlCount >= 1
      ensures Valid() && State() == StartGoogle(urlCount)
    {
      grid := GoogleImages;
      var total := Min(urlCount, MaxImages);
      totalImages := total;
      loadedCount, successCount := 0, 0;
      images := seq(total, _ => Slot(true, false, None));
      loadingText := Banner(GoogleLoadingText, true, false);
      StartGoogleConsistent(urlCount);
    }

    /** content.js:202-211: the fallback grid. */
    constructor ForFallback()
      ensures Valid() && State() == StartFallback()
    {
      grid := FallbackImages;
      totalImages := MaxImages;
      loadedCount, successCount := 0, 0;
      images := seq(MaxImages, _ => Slot(false, false, None));
      loadingText := Banner(FallbackLoadingText, true, false);
      new;
      assert State() == StartFallback();
      StartFallbackConsistent();
    }

    /** content.js:229-247 and 501-527: `img.onload`. */
    method OnLoad(i: nat)
      requires Valid() && Enabled(State(), Loaded(i))
      modifies this
      ensures State() == Step(old(State()), Loaded(i)) && Valid()
    {
      ghost var before := State();
      StepConsistent(before, Loaded(i));
      images := images[i := images[i].(timerPending := false, outcome := Some(true))];
      successCount := successCount + 1;
      loadedCount := loadedCount + 1;
      if grid == GoogleImages {
        if successCount == 1 {
          loadingText := loadingText.(visible := false);
        }
        if loadedCount == totalImages {
          loadingText := if successCount == 0 then Alert(AllFailedOnLoadText) else loadingText.(visible := false);
        }
      } else {
        if successCount >= 1 {
          loadingText := loadingText.(visible := false);
        }
        loadingText := if loadedCount == totalImages && successCount == 0 then Alert(FallbackFailedText) else loadingText;
      }
      assert State() == Step(before, Loaded(i));
    }

    /** content.js:249-264 and 529-563: `img.onerror`. */
    method OnError(i: nat)
      requires Valid() && Enabled(State(), Errored(i))
      modifies this
      ensures State() == Step(old(State()), Errored(i)) && Valid()
    {
      ghost var before := State();
      StepConsistent(before, Errored(i));
      images := images[i := images[i].(timerPending := false, outcome := Some(false))];
      loadedCount := loadedCount + 1;
      if loadedCount == totalImages {
        if successCount == 0 {
          loadingText := Alert(if grid == GoogleImages then AllFailedText else FallbackFailedText);
        } else if successCount > 0 {
          loadingText := loadingText.(visible := false);
        }
      }
      assert State() == Step(before, Errored(i));
    }

    /** content.js:489-499: the timeout of image i fires, when it is still scheduled. */
    method OnTimeout(i: nat, rendered: bool)
      requires Valid() && Enabled(State(), TimedOut(i, rendered))
      modifies this
      ensures State() == Step(old(State()), TimedOut(i, rendered)) && Valid()
    {
      ghost var before := State();
      StepConsistent(before, TimedOut(i, rendered));
      if !images[i].timerPending {
        return;
      }
      if rendered {
        images := images[i := images[i].(timerPending := false)];
      } else {
        images := images[i := images[i].(timerPending := false, timedOut := true)];
        loadedCount := loadedCount + 1;
        if loadedCount == totalImages && successCount == 0 {
          loadingText := Alert(TimeoutText);
        }
      }
      assert State() == Step(before, TimedOut(i, rendered));
    }
  }
}

=== FILE: relay.dfy ===
/**
 * The messages exchanged between the content script and the background service worker
 * (background.js:15-57 answers them, content.js:308-338 reads the answers).
 */
module Relay {
  import opened Wrappers

  /** The action that asks the background for image addresses. */
  const GetGoogleImagesAction: string := "getGoogleImages"

  /** `{action, word}`; either field may be missing. */
  datatype Request = Request(action: Option<string>, word: Option<string>)

  /** `{success: true, imageUrls}` or `{success: false, error}`. */
  datatype Response = Succeeded(imageUrls: seq<string>) | Failed(error: string)
}

=== FILE: retrieval.dfy ===
/**
 * The content script's two-step retrieval (content.js, `getGoogleImages`) and the way
 * `loadMoreImages` routes its outcome (content.js:441-463 and 583-624).
 *
 * The relay answer, whether the extension context is still valid and the outcome of the
 * direct page request are inputs; `decodeURIComponent` is the partial function `decode`.
 */
module Retrieval {
  import opened Wrappers
  import opened JsText
  import opened Relay
  import HtmlExtraction

  const ReloadedMessage: string := "扩展已重新加载，请刷新页面后重试"
  const NoResponseMessage: string := "未收到响应，扩展可能已重新加载"
  const RelayFailedMessage: string := "获取图片失败"
  const NothingExtractedMessage: string := "未能从搜索结果中提取图片 URL"
  const FetchPrefix: string := "无法获取 Google 图片: "
  const NotFoundMessage: string := "未找到图片"
  const FailurePrefix: string := "图片加载失败："
  const MaxImages: nat := 6

  /** How the `sendMessage` callback is invoked. */
  datatype RelayReply =
    | PortError(message: string)   // chrome.runtime.lastError is set
    | NoResponse                   // the callback receives no response
    | Answered(response: Response)

  /** How the direct request for the search page ends. */
  datatype PageFetch =
    | PageRejected(message: string) // fetch or response.text() rejects
    | PageStatus(status: nat)       // !response.ok; 0 when there is no status
    | PageBody(html: string)

  /** Port errors that mean the extension was reloaded under the page. */
  predicate IsReloadError(m: string) {
    Contains(m, "Extension context invalidated") || Contains(m, "The message port closed")
    || Contains(m, "Receiving end does not exist")
  }

  /** content.js:308-336: what the promise around `sendMessage` settles with. */
  function RelayResult(reply: RelayReply): (r: Result<seq<string>, string>)
    ensures r.Ok? <==> reply.Answered? && reply.response.Succeeded?
    ensures r.Ok? ==> r.value == reply.response.imageUrls
  {
    match reply
    case PortError(m) => Err(if IsReloadError(m) then ReloadedMessage else m)
    case NoResponse => Err(NoResponseMessage)
    case Answered(Succeeded(urls)) => Ok(urls)
    case Answered(Failed(e)) => Err(if e != [] then e else RelayFailedMessage)
  }

  /** The relay is used only when the context is valid and it answers with at least one address. */
  predicate RelayUsable(contextValid: bool, reply: RelayReply) {
    contextValid && RelayResult(reply).Ok? && |RelayResult(reply).value| > 0
  }

  function SearchPageUrl(word: string): string {
    "https://www.google.com/search?q=" + EncodeUriComponent(word) + "&tbm=isch&safe=active&ijn=0"
  }

  /** `${response?.status || 'unknown'}` */
  function StatusText(status: nat): string {
    if status == 0 then "unknown" else NatToDecimal(status)
  }

  /** content.js:352-376 before the re-wrapping: the page, its extraction and the cap of six. */
  function DirectResult(page: PageFetch, decode: string -> Option<string>): Result<seq<string>, string> {
    match page
    case PageRejected(m) => Err(m)
    case PageStatus(status) => Err("Fetch failed with status: " + StatusText(status))
    case PageBody(html) =>
      var urls := HtmlExtraction.Extracted(html, decode);
      if |urls| > 0 then Ok(urls[..Min(|urls|, MaxImages)]) else Err(NothingExtractedMessage)
  }

  /**
   * What `getGoogleImages` settles with. A usable relay answer is returned as it is; otherwise
   * the direct request succeeds exactly when the page is read and yields an address, gives the
   * first six of them, and every failure carries the '无法获取 Google 图片: ' prefix.
   */
  function GoogleImages(contextValid: bool, reply: RelayReply, page: PageFetch, decode: string -> Option<string>)
    : (r: Result<seq<string>, string>)
    ensures RelayUsable(contextValid, reply) ==> r == Ok(reply.response.imageUrls)
    ensures !RelayUsable(contextValid, reply) ==>
              (r.Ok? <==> page.PageBody? && HtmlExtraction.Extracted(page.html, decode) != [])
    ensures !RelayUsable(contextValid, reply) && r.Ok? ==>
              var urls := HtmlExtraction.Extracted(page.html, decode);
              |r.value| == Min(|urls|, MaxImages) && r.value == urls[..|r.value|]
              && forall i :: 0 <= i < |r.value| ==> HtmlExtraction.Acceptable(r.value[i])
    ensures !RelayUsable(contextValid, reply) && r.Err? ==> StartsWith(r.error, FetchPrefix)
    ensures r.Ok? ==> 1 <= |r.value|
  {
    if RelayUsable(contextValid, reply) then RelayResult(reply)
    else
      match DirectResult(page, decode)
      case Ok(urls) => Ok(urls)
      case Err(m) =>
        assert (FetchPrefix + m)[..|FetchPrefix|] == FetchPrefix;
        Err(FetchPrefix + m)
  }

  /** A relay that fails or answers with no address has no influence on the result. */
  lemma RelayErrorsSwallowed(c1: bool, r1: RelayReply, c2: bool, r2: RelayReply, page: PageFetch,
                             decode: string -> Option<string>)
    requires !RelayUsable(c1, r1) && !RelayUsable(c2, r2)
    ensures GoogleImages(c1, r1, page, decode) == GoogleImages(c2, r2, page, decode)
  {
  }

  /**
   * content.js:301-387. Returns the result and the address of the search page when the
   * direct request is made (None when the relay answer is used).
   */
  method GetGoogleImages(word: string, contextValid: bool, reply: RelayReply, page: PageFetch,
                         decode: string -> Option<string>)
    returns (r: Result<seq<string>, string>, searchUrl: Option<string>)
    ensures r == GoogleImages(contextValid, reply, page, decode)
    ensures searchUrl.Some? <==> !RelayUsable(contextValid, reply)
    ensures searchUrl.Some? ==> searchUrl.value == SearchPageUrl(word)
  {
    if contextValid {
      var result := RelayResult(reply);
      if result.Ok? && |result.value| > 0 {
        return result, None;
      }
    }
    searchUrl := Some(SearchPageUrl(word));
    var thrown: string;
    match page {
      case PageRejected(m) =>
        thrown := m;
      case PageStatus(status) =>
        thrown := "Fetch failed with status: " + StatusText(status);
      case PageBody(html) =>
        var imageUrls := HtmlExtraction.ExtractImageUrlsFromHtml(html, decode);
        if |imageUrls| > 0 {
          return Ok(imageUrls[..Min(|imageUrls|, MaxImages)]), searchUrl;
        }
        thrown := NothingExtractedMessage;
    }
    r := Err(FetchPrefix + thrown);
  }

  // ---------------------------------------------------------------------------
  // loadMoreImages: what happens with the outcome
  // ---------------------------------------------------------------------------

  const FallbackNotice: string := "无法连接 Google，尝试使用备用图片源（Unsplash）..."

  /** What `loadMoreImages` goes on to do. */
  datatype LoadPlan =
    | GoogleGrid(urls: seq<string>, total: nat) // build the grid of the first `total` addresses
    | AskReload                                 // show ReloadedMessage, then a reload button
    | SwitchToFallback                          // show FallbackNotice, then `loadFallbackImages`
    | ShowFailure(message: string)              // show the message in red

  predicate MentionsReload(m: string) {
    Contains(m, "扩展") || Contains(m, "Extension context")
  }

  predicate MentionsUnreachable(m: string) {
    Contains(m, "无法") || Contains(m, "Failed to fetch") || Contains(m, "无法获取")
  }

  /** content.js:583-624: the catch block's three-way routing of an error message. */
  function ClassifyLoadError(m: string): LoadPlan {
    if MentionsReload(m) then AskReload
    else if MentionsUnreachable(m) then SwitchToFallback
    else ShowFailure(FailurePrefix + m)
  }

  /** The third test adds nothing: a message containing '无法获取' contains '无法'. */
  lemma {:induction false} UnreachableTestRedundant(m: string)
    ensures Contains(m, "无法获取") ==> Contains(m, "无法")
    decreases |m|
  {
    if |m| > 0 {
      UnreachableTestRedundant(m[1..]);
    }
    if StartsWith(m, "无法获取") {
      assert m[..2] == m[..4][..2];
    }
  }

  /** The plan for an outcome: the grid for a non-empty list, otherwise the routed error. */
  function PlanFor(r: Result<seq<string>, string>): LoadPlan {
    if r.Ok? && |r.value| > 0 then GoogleGrid(r.value, Min(|r.value|, MaxImages))
    else ClassifyLoadError(if r.Ok? then NotFoundMessage else r.error)
  }

  /**
   * content.js:441-463 and 583-624. The grid shows min(n, 6) images of a non-empty list;
   * an error is routed by its message.
   */
  method LoadMoreImages(word: string, contextValid: bool, reply: RelayReply, page: PageFetch,
                        decode: string -> Option<string>)
    returns (plan: LoadPlan)
    ensures plan == PlanFor(GoogleImages(contextValid, reply, page, decode))
    ensures plan.GoogleGrid? ==> 1 <= plan.total <= MaxImages && plan.total == Min(|plan.urls|, MaxImages)
    ensures RelayUsable(contextValid, reply) ==>
              plan == GoogleGrid(reply.response.imageUrls, Min(|reply.response.imageUrls|, MaxImages))
    ensures !RelayUsable(contextValid, reply) ==>
              (plan.GoogleGrid? <==> page.PageBody? && HtmlExtraction.Extracted(page.html, decode) != [])
  {
    var imageUrls, _ := GetGoogleImages(word, contextValid, reply, page, decode);
    if imageUrls.Ok? && |imageUrls.value| > 0 {
      var totalImages := Min(|imageUrls.value|, MaxImages);
      return GoogleGrid(imageUrls.value, totalImages);
    }
    var message := if imageUrls.Ok? then NotFoundMessage else imageUrls.error;
    plan := ClassifyLoadError(message);
  }

  /** A pattern whose first character is missing from both parts is missing from their concatenation. */
  lemma AbsentFromBoth(a: string, b: string, p: string)
    requires |p| > 0 && p[0] !in a && p[0] !in b
    ensures !Contains(a + b, p)
  {
    assert p[0] !in a + b;
    NotContainsForeignHead(a + b, p);
  }

  /** A status failure never mentions the extension. */
  lemma StatusMessageNoReload(status: nat)
    ensures !MentionsReload("Fetch failed with status: " + StatusText(status))
  {
    var lead, digits := "Fetch failed with status: ", StatusText(status);
    assert '扩' !in digits && 'E' !in digits;
    assert '扩' !in lead && 'E' !in lead;
    AbsentFromBoth(lead, digits, "扩展");
    AbsentFromBoth(lead, digits, "Extension context");
  }

  /** Nor does the message for an extraction that found nothing. */
  lemma NothingExtractedNoReload()
    ensures !MentionsReload(NothingExtractedMessage)
  {
    var m := NothingExtractedMessage;
    assert '扩' !in m && 'E' !in m;
    NotContainsForeignHead(m, "扩展");
    NotContainsForeignHead(m, "Extension context");
  }

  /** The message of a failed direct request mentions the extension only when a rejection's message does. */
  lemma DirectFailureMessage(page: PageFetch, decode: string -> Option<string>)
    requires DirectResult(page, decode).Err?
    requires page.PageRejected? ==> !MentionsReload(page.message)
    ensures !MentionsReload(DirectResult(page, decode).error)
  {
    match page
    case PageRejected(_) =>
    case PageStatus(status) => StatusMessageNoReload(status);
    case PageBody(_) => NothingExtractedNoReload();
  }

  /**
   * Every failure of the direct request is routed to the fallback source, unless a rejected
   * request's own message mentions the extension.
   */
  lemma DirectFailureFallsBack(contextValid: bool, reply: RelayReply, page: PageFetch,
                               decode: string -> Option<string>)
    requires !RelayUsable(contextValid, reply)
    requires !(page.PageBody? && HtmlExtraction.Extracted(page.html, decode) != [])
    requires page.PageRejected? ==> !MentionsReload(page.message)
    ensures PlanFor(GoogleImages(contextValid, reply, page, decode)) == SwitchToFallback
  {
    var inner := DirectResult(page, decode).error;
    DirectFailureMessage(page, decode);
    var message := FetchPrefix + inner;
    assert GoogleImages(contextValid, reply, page, decode) == Err(message);
    ContainsAfterForeignPrefix(FetchPrefix, inner, "扩展");
    ContainsAfterForeignPrefix(FetchPrefix, inner, "Extension context");
    assert message[..2] == "无法";
    assert !MentionsReload(message) && MentionsUnreachable(message);
  }

  /**
   * What `loadMoreImages` can go on to do once `getGoogleImages` settles. The grid is built
   * exactly when the retrieval succeeds. A reload is asked exactly when the relay is not used and
   * the direct request is rejected with a message that mentions the extension; every other
   * failure goes to the fallback source. The
   * red failure branch (content.js:624-626) is never taken: every failure carries the
   * '无法获取 Google 图片: ' prefix, and the '未找到图片' error needs an empty list, which
   * `getGoogleImages` never returns.
   */
  lemma OutcomeRouting(contextValid: bool, reply: RelayReply, page: PageFetch,
                       decode: string -> Option<string>)
    ensures var plan := PlanFor(GoogleImages(contextValid, reply, page, decode));
            && (plan.GoogleGrid? <==> GoogleImages(contextValid, reply, page, decode).Ok?)
            && (plan == AskReload ==> page.PageRejected? && MentionsReload(page.message))
            && (!RelayUsable(contextValid, reply) && page.PageRejected? && MentionsReload(page.message)
                ==> plan == AskReload)
            && !plan.ShowFailure?
  {
    var r := GoogleImages(contextValid, reply, page, decode);
    if !RelayUsable(contextValid, reply) && page.PageRejected? && MentionsReload(page.message) {
      assert r == Err(FetchPrefix + page.message);
      if Contains(page.message, "扩展") {
        ContainsAfterPrefix(FetchPrefix, page.message, "扩展");
      } else {
        ContainsAfterPrefix(FetchPrefix, page.message, "Extension context");
      }
    }
    if r.Err? {
      assert FetchPrefix[..2] == "无法";
      assert r.error[..2] == "无法";
      assert Contains(r.error, "无法");
      if !(page.PageRejected? && MentionsReload(page.message)) {
        DirectFailureFallsBack(contextValid, reply, page, decode);
      }
    }
  }
}

=== FILE: word_detection.dfy ===
/**
 * Detecting the word shown on the current page (content.js, `detectCurrentWord`).
 *
 * The page is given as what the DOM lookups return: for each of the ten selectors of
 * content.js:48-59, in order, the text content of the first element it matches, or None
 * when it matches nothing;
 * and the tokens that the page-text regular expression finds, in page order.
 */
module WordDetection {
  import opened Wrappers
  import opened JsText

  /** `/^[a-zA-Z]+$/.test(w)`: one or more ASCII letters and nothing else. */
  predicate IsLetterWord(w: string) {
    |w| > 0 && IsAsciiWord(w)
  }

  /** What one selector contributes: the trimmed text of its element, when that is a letter word. */
  function SelectorWord(element: Option<string>): Option<string> {
    match element
    case Some(text) => if IsLetterWord(Trim(text)) then Some(Trim(text)) else None
    case None => None
  }

  /**
   * The position of the first selector that yields a word, or |elements| when none does:
   * every earlier selector found no element or an element whose text is not a letter word.
   */
  function FirstAccepted(elements: seq<Option<string>>): (k: nat)
    ensures k <= |elements|
    ensures k < |elements| ==> SelectorWord(elements[k]).Some?
    ensures forall j :: 0 <= j < k ==> SelectorWord(elements[j]).None?
    decreases |elements|
  {
    if elements == [] then 0
    else if SelectorWord(elements[0]).Some? then 0
    else
      var k := 1 + FirstAccepted(elements[1..]);
      assert forall j :: 1 <= j < |elements| ==> elements[j] == elements[1..][j - 1];
      k
  }

  /** The first accepting position is determined by the two properties above. */
  lemma FirstAcceptedIs(elements: seq<Option<string>>, k: nat)
    requires k <= |elements|
    requires k < |elements| ==> SelectorWord(elements[k]).Some?
    requires forall j :: 0 <= j < k ==> SelectorWord(elements[j]).None?
    ensures FirstAccepted(elements) == k
  {
  }

  /** The heuristic keeps page-text tokens of 3 to 20 characters. */
  predicate InLengthRange(t: string) {
    3 <= |t| <= 20
  }

  /** `words.filter(w => w.length >= 3 && w.length <= 20)` */
  function KeepInRange(tokens: seq<string>): (r: seq<string>)
    ensures |r| <= |tokens|
    ensures forall t :: t in r <==> t in tokens && InLengthRange(t)
    decreases |tokens|
  {
    if tokens == [] then []
    else if InLengthRange(tokens[0]) then [tokens[0]] + KeepInRange(tokens[1..])
    else KeepInRange(tokens[1..])
  }

  /** The filter keeps page order: filtering a concatenation filters each part in turn. */
  lemma {:induction false} KeepInRangeAppend(a: seq<string>, b: seq<string>)
    ensures KeepInRange(a + b) == KeepInRange(a) + KeepInRange(b)
    decreases |a|
  {
    if a == [] {
      assert a + b == b;
    } else {
      assert (a + b)[0] == a[0] && (a + b)[1..] == a[1..] + b;
      KeepInRangeAppend(a[1..], b);
    }
  }

  /** The first survivor of the filter is the first token, in page order, whose length is in range. */
  lemma {:induction false} FirstSurvivor(tokens: seq<string>, i: nat)
    requires i < |tokens| && InLengthRange(tokens[i])
    requires forall j :: 0 <= j < i ==> !InLengthRange(tokens[j])
    ensures KeepInRange(tokens) != [] && KeepInRange(tokens)[0] == tokens[i]
    decreases i
  {
    if i > 0 {
      FirstSurvivor(tokens[1..], i - 1);
    }
  }

  /** What `detectCurrentWord` returns, stated on the two passes. */
  function Detected(elements: seq<Option<string>>, tokens: seq<string>): Option<string> {
    var k := FirstAccepted(elements);
    if k < |elements| then SelectorWord(elements[k])
    else
      var survivors := KeepInRange(tokens);
      if |survivors| > 0 then Some(survivors[0]) else None
  }

  /**
   * content.js:46-88. Walks the selectors and returns the first trimmed text that is a
   * letter word; only when none is found does it fall back to the first page token of
   * 3 to 20 characters, and to None (nothing detected) when there is none.
   */
  method DetectCurrentWord(elements: seq<Option<string>>, tokens: seq<string>) returns (word: Option<string>)
    ensures word == Detected(elements, tokens)
  {
    word := None;
    for i := 0 to |elements|
      invariant i <= FirstAccepted(elements)
    {
      var element := elements[i];
      if element.Some? {
        word := Some(Trim(element.value));
        if |word.value| > 0 && IsAsciiWord(word.value) {
          assert SelectorWord(element).Some?;
          return;
        }
      }
      assert SelectorWord(element).None?;
    }

    var filteredWords := KeepInRange(tokens);
    if |filteredWords| > 0 {
      word := Some(filteredWords[0]);
      return;
    }
    word := None;
  }

  /**
   * Once a selector yields a word, it is the result, whatever the later selectors and
   * the page text hold.
   */
  lemma SelectorWins(elements: seq<Option<string>>, tokens: seq<string>, k: nat)
    requires k < |elements| && SelectorWord(elements[k]).Some?
    requires forall j :: 0 <= j < k ==> SelectorWord(elements[j]).None?
    ensures Detected(elements, tokens) == Some(Trim(elements[k].value))
  {
    FirstAcceptedIs(elements, k);
  }

  /**
   * When no selector yields a word, the result is the first in-range page token,
   * or None exactly when there is no such token.
   */
  lemma {:induction false} FallbackToPageText(elements: seq<Option<string>>, tokens: seq<string>)
    requires forall j :: 0 <= j < |elements| ==> SelectorWord(elements[j]).None?
    ensures Detected(elements, tokens).None? <==> forall t :: t in tokens ==> !InLengthRange(t)
    ensures forall i :: 0 <= i < |tokens| && InLengthRange(tokens[i])
              && (forall j :: 0 <= j < i ==> !InLengthRange(tokens[j]))
              ==> Detected(elements, tokens) == Some(tokens[i])
  {
    FirstAcceptedIs(elements, |elements|);
    var survivors := KeepInRange(tokens);
    if survivors != [] {
      assert survivors[0] in survivors;
    }
    forall i | 0 <= i < |tokens| && InLengthRange(tokens[i]) && (forall j :: 0 <= j < i ==> !InLengthRange(tokens[j]))
      ensures Detected(elements, tokens) == Some(tokens[i])
    {
      FirstSurvivor(tokens, i);
    }
  }

  /** Whatever is detected is a letter word from a selector or a page token of 3 to 20 characters. */
  lemma DetectedShape(elements: seq<Option<string>>, tokens: seq<string>)
    ensures Detected(elements, tokens).Some? ==>
              var w := Detected(elements, tokens).value;
              IsLetterWord(w) || (w in tokens && InLengthRange(w))
  {
    var survivors := KeepInRange(tokens);
    if FirstAccepted(elements) == |elements| && survivors != [] {
      assert survivors[0] in survivors;
    }
  }
}

=== FILE: wrappers.dfy ===
/** Option and Result: the "absent" and "thrown" outcomes of the extension's JavaScript. */
module Wrappers {

  /** A value that may be missing (`null`, `undefined`, a failed lookup). */
  datatype Option<+T> = None | Some(value: T)

  /** The outcome of an operation that either returns a value or throws an `Error` with a message. */
  datatype Result<+T, +E> = Ok(value: T) | Err(error: E)
}
